=== FILE: README.md ===
# CV and delivery-cost aggregation, modelled in Dafny

The repository holds two Streamlit scripts for an advertising report.

- `streamlit_app.py` is the combined dashboard. Its conversion side reads a CV log: column 0 holds the day, and every further column holds the daily count of one ad code. It classifies each code into a (媒体 media, 分類 category) bucket: an affiliate prefix wins, and the AF master table is consulted second. It sums the classified columns over the chosen range and groups the sums by (category, media). Its cost side reads every cost-report sheet whose name contains "Listing", "Display" or "affiliate". For each label of the sheet type's column table, it pairs the label's amount with the row's day. It sums these per (day, label) and pivots the sums into a day-by-label table whose missing cells read 0. Everything is written to one workbook named after the range.
- `app.py` is the plain cost-totals app. For the same sheets and column tables, it reports one total per label over the chosen range, or the marker "エラー" when that label's total cannot be computed. The results are written to a workbook with worksheet names cut to 31 characters.

The Dafny modules follow that structure:

- `Wrappers`: the `Option` type, and the held values of a sequence of options.
- `Order`: strict total orders, sortedness, and sort-with-deduplication.
- `Strings`: Python string order, `in` and `startswith`, `[:n]`, and zero-padded digit fields.
- `Dates`: calendar days with the `%Y/%m/%d` and `%Y%m%d` forms.
- `Tables`: cells, rows, the inclusive date filter, and column sums.
- `Grouping`: the group-by-sum and its reference sum.
- `Classifier`: the conversion side.
- `CostSheets`: sheet selection, sheet types and the column tables shared by both scripts.
- `Export`: worksheet and file names.
- `LabelTotals`: `app.py`.
- `DailyPivot`: the cost side of `streamlit_app.py`.

Some things are parameters of the model:

- Date parsing (`pd.to_datetime(..., errors="coerce")`) is the function parameter `parse`, from a cell to a day or nothing.
- "Today" is the parameter `today`.

A cell is one of four values: empty, an integer, a day, or text.

## Model

| member | source | states |
|---|---|---|
| Tables.FilterByDate | streamlit_app.py:60 | A row is kept exactly when it was in the input and its parsed day lies in [start, end], both ends included. A row with no parsable day is never kept, and the result is no longer than the input. |
| Tables.FilterAppend | app.py:40-43 | Filtering distributes over concatenation, so the kept rows keep their original order. |
| Tables.FilterInverted | app.py:19-20 | With start after end, no row is kept; computation goes on with the empty selection. |
| Tables.ColumnSumAppend | app.py:77 | The column sum is additive over concatenated rows; empty cells add 0. |
| Tables.DefaultRange | streamlit_app.py:34-43 | With no parsable day in column 0, the offered range is (today, today). Otherwise both ends are days that occur in the log, and every parsed day lies between them. |
| Dates.SlashedOrder | streamlit_app.py:119 | The `%Y/%m/%d` strings compare as Python strings exactly as the days compare chronologically, and equal strings mean equal days. |
| Dates.CompactRoundTrip | app.py:23-24 | The `%Y%m%d` form of a day parses back to the same day. |
| Classifier.MasterMap | streamlit_app.py:62 | The code-keyed master exists exactly when no code is listed twice. Its keys are exactly the listed codes, and each code maps to its row's media and category. |
| Classifier.ClassifyFromRecords | streamlit_app.py:62-73 | A code without an affiliate prefix is classified into its own master row's (media, category). |
| Classifier.Classify | streamlit_app.py:64-75 | An affiliate-prefixed code is ("Affiliate", "Affiliate") whatever the master says. Otherwise a code in the master gets the master's bucket. The code is dropped exactly when neither applies. |
| Classifier.SumColumns | streamlit_app.py:66-78 | `result_list` holds at most one code sum per ad-code column. Its exact shape is stated by the lemmas below. |
| Classifier.SumColumnsSound | streamlit_app.py:63-78 | Every element of `result_list` is the sum, over the kept rows, of the column of a classified code, with that code's bucket. |
| Classifier.SumColumnsComplete | streamlit_app.py:63-78 | Every classified code's column appears in `result_list` with its bucket and its sum. |
| Classifier.SumColumnsAppend | streamlit_app.py:66-78 | Splitting the ad-code columns splits `result_list` the same way. So the code sums come one per classified column, in column order, and none is repeated. |
| Classifier.SumColumnsEmpty | streamlit_app.py:66-78 | `result_list` is empty exactly when no column's code is classified. |
| Classifier.SumColumnsClassSum | streamlit_app.py:66-80 | For every bucket, the code sums in `result_list` add up to the reference sum: the counts of the columns whose code falls into that bucket, over the kept rows. |
| Classifier.SumColumnsTotal | streamlit_app.py:66-80 | All code sums together add up to the counts of every classified column. |
| Classifier.SumColumnsKeys | streamlit_app.py:66-78 | A bucket has a code sum exactly when some column's code falls into it. |
| Classifier.GroupCv | streamlit_app.py:80 | The grouped table is sorted by (category, media). A bucket appears exactly when some classified code falls into it. Its amount is the sum of that bucket's code sums, and the grand total is preserved. |
| Classifier.GroupCvAsWritten | streamlit_app.py:80 | As written, the grouping fails exactly when `result_list` is empty, and otherwise agrees with `GroupCv`. |
| Classifier.UnclassifiedLogFails | streamlit_app.py:66-80 | A log whose only code is unclassified yields an empty `result_list`, on which the written grouping fails where the intended result is the empty table. |
| Classifier.CvReport | streamlit_app.py:58-80 | The conversion table is sorted by (category, media). Its buckets are exactly those that some ad code falls into. Each bucket's amount is the reference sum of its columns' counts over the days in range. The grand total is the count of every classified column. All of this is stated over the log's columns, not over `result_list`. |
| Classifier.CvReportAsWritten | streamlit_app.py:66-80 | As written, the report fails exactly on a log none of whose ad codes is classified. On such a log the intended table is empty. |
| Classifier.AffiliateBucketPresent | streamlit_app.py:68-70 | Any affiliate-prefixed code puts the ("Affiliate", "Affiliate") bucket into the conversion table. |
| Grouping.GroupSum | streamlit_app.py:80 | The accumulated map has exactly the keys present, each holding the reference sum of that key's amounts. |
| Grouping.Grouped | streamlit_app.py:80 | The grouped entries have strictly sorted keys, exactly the input's keys, and the reference sum per key. |
| Grouping.GroupedSums | streamlit_app.py:80 | Looking a key up in the grouped result (0 when absent) gives that key's sum in the input. |
| Grouping.GroupedIdempotent | streamlit_app.py:80 | Grouping an already grouped table changes nothing. |
| Grouping.GroupedTotal | streamlit_app.py:80 | Grouping preserves the grand total. |
| Order.SortedUnique | streamlit_app.py:121 | Two strictly sorted sequences with the same members are equal, so the pivot's sorted axes are determined by their contents. |
| CostSheets.TargetsOf | streamlit_app.py:87 | A sheet is selected exactly when it is in the workbook and its name contains "Listing", "Display" or "affiliate". |
| CostSheets.TargetsOfAppend | streamlit_app.py:87 | Selection splits over a split workbook, so the selected sheets keep their workbook order. |
| CostSheets.Columns | streamlit_app.py:97-104 | The Listing table has 8 labels, the Display table 10 and the affiliate table 1. Within a table the offsets strictly increase in dict order, so no two labels read the same column. |
| CostSheets.TypeOf | streamlit_app.py:91 | A sheet is Listing exactly when its name contains "Listing". It is Display exactly when its name contains "Display" but not "Listing", and Affiliate otherwise. |
| CostSheets.AffiliateTargetNamed | app.py:11-32 | A selected sheet typed as affiliate has "affiliate" in its name. |
| CostSheets.DateOffset | streamlit_app.py:92 | The date column is 1 or 0, and lies before every amount column of the type. |
| CostSheets.DateOffsetByName | streamlit_app.py:91-92 | The date is read from column 1 exactly when the sheet name contains "Listing" or "Display", and from column 0 otherwise. |
| CostSheets.LabelsDistinct | app.py:45-72 | No type's column table lists a label twice, so a label names at most one column. |
| Strings.ContainsOccurs | app.py:11 | The recursive substring test holds exactly when the pattern occurs at some position. |
| LabelTotals.SumOrFail | app.py:76-80 | A label's sum fails exactly when some kept row holds text or a day at its offset; otherwise it is the column sum. |
| LabelTotals.TotalOf | app.py:76-80 | The result is the marker exactly when the offset is past the last column or a value is not numeric; otherwise it is the column sum over the kept rows. |
| LabelTotals.SheetTotals | app.py:74-82 | There is one entry per label of the type, in table order and with the table's label. Each entry is the marker exactly in the failing cases, and the sum over the kept rows otherwise. |
| LabelTotals.InvertedRangeTotals | app.py:19-20 | With start after end, every label whose column exists totals 0, and only labels past the last column fail. |
| LabelTotals.SummarizeAll | app.py:29-83 | There is one summary per selected sheet, in order. |
| LabelTotals.RunApp | app.py:9-92 | Only the error results exactly when no sheet is selected. The warning flag holds exactly when start is after end. The file name carries (start, end) back out. There is one summary per selected sheet, in workbook order. Each has the sheet's name, its 31-character export name, and exactly that sheet's `SheetTotals`. |
| Export.ExportSheetName | app.py:92 | The export name is a prefix of the sheet name. It equals the sheet name exactly when that name fits in 31 characters. Otherwise it is exactly the first 31 characters. |
| Export.FileName | app.py:23-25 | A download name is the prefix, eight digits, the separator, eight digits and ".xlsx", in that order. |
| Export.FileNameRoundTrip | app.py:23-25 | Reading the two `%Y%m%d` fields back out of a generated file name gives the chosen range. |
| Export.CostFileName | app.py:23-25 | The cost-totals file name is 28 characters and encodes the range recoverably. |
| Export.ReportFileName | streamlit_app.py:138 | The combined file name is 32 characters and encodes the range recoverably. |
| Export.PivotSheetName | streamlit_app.py:135 | The pivot worksheet name fits the 31-character limit unchanged. |
| Export.PivotSheetNameInjective | streamlit_app.py:134-135 | Two cost pivots share a worksheet name exactly when their sheets have the same type. |
| DailyPivot.Extractable | streamlit_app.py:106-114 | The labels kept are exactly those of the table whose column exists; the others are skipped by the `except`. |
| DailyPivot.ExtractableDistinct | streamlit_app.py:106-114 | Skipping labels keeps the labels distinct. |
| DailyPivot.DatedAmountsSum | streamlit_app.py:108-112 | A label's (day, amount) pairs, summed for a day, give the reference day sum of that label's column. |
| DailyPivot.DatedAmountsKeys | streamlit_app.py:108-112 | The days of a label's pairs are exactly the parsed days of the rows. |
| DailyPivot.DatedAmountsTotal | streamlit_app.py:108-117 | When every row has a day, a label's pairs add up to its column sum. |
| DailyPivot.DailyEntriesSum | streamlit_app.py:115-117 | After concatenation, a (day, label) total is that label's day sum, and 0 for a label not extracted. |
| DailyPivot.DailyEntriesKeys | streamlit_app.py:115-117 | The concatenated keys are exactly the extracted labels paired with the rows' days. |
| DailyPivot.GroupDaily | streamlit_app.py:117 | The grouped pairs are sorted by (day, label), keep exactly the keys present, and sum each. |
| DailyPivot.PivotOf | streamlit_app.py:121 | The pivot's days and labels are sorted and are exactly those of the grouped keys. Every (day, label) cell is the grouped amount, and 0 where no entry exists. |
| DailyPivot.LabelPivotDates | streamlit_app.py:106-121 | With at least one label, the pivot rows are exactly the rows' days. |
| DailyPivot.LabelPivotLabels | streamlit_app.py:106-121 | When every row has a day, the pivot columns are all the extracted labels, or none when there is no row. |
| DailyPivot.LabelPivotCells | streamlit_app.py:106-121 | Each cell is its label's amounts summed over the rows of its day. |
| DailyPivot.LabelPivotColumnTotal | streamlit_app.py:117-121 | A pivot column adds up to the label's plain column sum: spreading the amounts over days loses and duplicates nothing. |
| DailyPivot.SheetPivot | streamlit_app.py:106-116 | A sheet yields no pivot exactly when none of its type's labels has a column. |
| DailyPivot.SheetPivotDates | streamlit_app.py:94-121 | When a sheet has a pivot, its rows are exactly the days of the sheet's rows kept by the range filter. |
| DailyPivot.SheetPivotLabels | streamlit_app.py:106-121 | When a sheet has a pivot, its columns are exactly the type's labels that have a column, or none when no row is kept. |
| DailyPivot.SheetPivotCells | streamlit_app.py:106-121 | When a sheet has a pivot, each cell is the label's amounts summed over the kept rows of that day. |
| DailyPivot.SheetPivotColumnTotal | streamlit_app.py:106-121 | Each column of a sheet's pivot adds up to its label's plain sum over the kept rows. |
| DailyPivot.PivotAgreesWithTotals | streamlit_app.py:117 | The two scripts agree: for every label in a sheet's pivot, its column adds up to the total that the cost-totals app (app.py:77) reports for that label. |
| DailyPivot.RowKeys | streamlit_app.py:118-121 | The formatted row keys are strictly ascending as strings, in day order. |
| DailyPivot.CostResults | streamlit_app.py:89-128 | The results are exactly the contributions of the workbook's sheets, and there are no more of them than sheets. |
| DailyPivot.CostResultsAppend | streamlit_app.py:89-128 | Results split over a split workbook. So there is one entry per contributing sheet, in workbook order, and a later sheet's pivot comes after an earlier one's. |
| DailyPivot.CostResultsSingle | streamlit_app.py:89-128 | A single sheet adds its contribution, if it has one, and nothing else. |
| DailyPivot.Contribution | streamlit_app.py:89-128 | A sheet contributes exactly when it is selected and has a pivot, and then it contributes its type and that pivot. |

## Left out

- Streamlit widgets, uploads, tables, charts (`alt.Chart`) and the download button are left out as user-interface I/O. The date picker's chosen range is a parameter.
- The workbook bytes (`ExcelWriter`, `to_excel`) are left out. The model stops at the worksheet and file names.
- Column-wise date inference by `pd.to_datetime` is left out: a per-cell parse function is passed in instead. Days carry no time of day, and years are limited to 1000..9999, a superset of what a pandas timestamp can hold.
- Amounts are integers. Floating-point sums and the `:,.2f` text formatting in app.py:78 are left out, because a formatted number carries the same value.
- The reading of the AF master file (streamlit_app.py:14-16) is left out as I/O. The master is given as records.
- In streamlit_app.py, the added 日付 column becomes one of `test_df.columns[1:]`. The model's CV log lists only the ad-code columns. 日付 is neither affiliate-prefixed nor, in practice, a master code, so it is dropped either way.
- Classifier.CvReport: requires every summed count to be numeric. Text in a count column would make pandas concatenate or raise instead of adding.
- Classifier.CvReport: ad-code headers and master AFコード values are taken to be text. A numeric header cell, such as `10023`, becomes an integer column name, and `startswith` at streamlit_app.py:68 then raises, so the dashboard stops before any table. A numeric master code becomes an integer key that no text header matches, so that code is dropped without notice. Neither path is modelled.
- DailyPivot.SheetPivot: requires the amounts of the extracted labels to be numeric on the kept rows, for the same reason.
- LabelTotals.TotalOf: the error marker is decided value by value, from the kept cells at the label's offset. pandas decides `.sum()` by the column's dtype, which is inferred from the whole sheet. A column that holds only days and empty cells is datetime64, so its sum raises and gives "エラー" even when no row is kept; the model gives `Amount(0)` there. A day summed in a mixed column is also not modelled as formatted by `strftime`. Cells carry no column dtype in this model.
- LabelTotals.SumOrFail: the same per-value reading of the failure as LabelTotals.TotalOf; the whole-column dtype is not modelled.
- LabelTotals.InvertedRangeTotals: states 0 for every existing column on an inverted range. A whole-sheet datetime64 column would give the marker instead, as under LabelTotals.TotalOf.
- DailyPivot.PivotAgreesWithTotals: the agreement is stated for the per-value reading of LabelTotals.TotalOf. A whole-sheet datetime64 column is not modelled there either.
- CostSheets.Processable: a sheet narrower than its date offset makes `iloc` raise in both scripts. The functions over sheets require it instead of modelling the crash.
- A master row whose media or category is missing is not modelled: pandas' grouping would drop it silently. All master values are strings.
- The `try` around the date conversion in app.py:35-38 is not modelled: with errors coerced, the conversion does not raise.
- The condition-analysis section of streamlit_app.py after line 140 is left out.
- The canonical column reordering and the appended "Total" row of the pivot are left out. They are not part of these two scripts.
- streamlit_app.py:52 is an indented line after a top-level statement, so the file as written does not parse. In the dashboard model the chosen range goes straight into the filter, and an inverted range keeps no row (Tables.FilterInverted). No warning is modelled for the dashboard. The inverted-range warning is modelled only for app.py:19-20, as the `inverted` flag of LabelTotals.RunApp.
- Two cost sheets of the same type write their pivots to the same worksheet (Export.PivotSheetNameInjective states when). What the workbook library then does with the repeated name is not modelled.
- Export.ExportSheetName: distinct sheet names that share their first 31 characters would collide. The workbook format already limits names to 31 characters, so the cut never applies to a real workbook.

## Findings

| source | as written | input that shows it | evidently intended | confidence | as-written member | corrected member |
|---|---|---|---|---|---|---|
| streamlit_app.py:80 | `pd.DataFrame(result_list).groupby(["分類", "媒体"])` on an empty `result_list` builds a frame with no columns, so the grouping raises a KeyError | a CV log whose only ad code, such as `XYZ1`, has no affiliate prefix and is not in the master | an empty conversion table, so the cost side and the download still run | not executed | Classifier.GroupCvAsWritten, Classifier.CvReportAsWritten, Classifier.UnclassifiedLogFails | Classifier.GroupCv, Classifier.CvReport |

=== FILE: classifier.dfy ===
/** The conversion ("CV") side of the report: each ad-code column of the CV
    log is classified into a (media, category) bucket, by affiliate prefix
    first and by the master table second; the classified columns are summed
    over the chosen date range and the sums are grouped by
    (category, media). */
module Classifier {
  import opened Wrappers
  import opened Order
  import opened Strings
  import opened Dates
  import opened Tables
  import opened Grouping

  /** One row of the master table: AFコード, 媒体 (media), 分類 (category). */
  datatype AdCodeRecord = AdCodeRecord(code: string, media: string, category: string)

  /** A classification bucket. */
  datatype Class = Class(media: string, category: string)

  function RecordCodes(records: seq<AdCodeRecord>): (cs: seq<string>)
    ensures |cs| == |records|
    ensures forall i :: 0 <= i < |records| ==> cs[i] == records[i].code
  {
    if |records| == 0 then [] else [records[0].code] + RecordCodes(records[1..])
  }

  /** The master table keyed by code (`set_index("AFコード").to_dict("index")`),
      or `None` when a code is listed twice, which pandas refuses. */
  function MasterMap(records: seq<AdCodeRecord>): (r: Option<map<string, Class>>)
    ensures r.Some? <==> Distinct(RecordCodes(records))
    ensures r.Some? ==> forall c :: c in r.value <==> c in RecordCodes(records)
    ensures r.Some? ==> forall i :: 0 <= i < |records| ==>
      r.value[records[i].code] == Class(records[i].media, records[i].category)
  {
    if |records| == 0 then Some(map[])
    else
      var rest := MasterMap(records[1..]);
      var rec := records[0];
      assert RecordCodes(records) == [rec.code] + RecordCodes(records[1..]);
      if rest.None? then None
      else if rec.code in rest.value then None
      else
        assert forall i :: 1 <= i < |records| ==> records[i] == records[1..][i - 1];
        Some(rest.value[rec.code := Class(rec.media, rec.category)])
  }

  const AffiliatePrefixes: seq<string> := ["GEN", "AFA", "AFP", "RAA"]

  const AffiliateClass := Class("Affiliate", "Affiliate")

  /** `any(code.startswith(p) for p in affiliate_prefixes)`. */
  predicate HasAffiliatePrefix(code: string) {
    exists p :: p in AffiliatePrefixes && StartsWith(code, p)
  }

  /** The classification of one ad code: any affiliate prefix wins over the
      master table; otherwise the master's bucket; otherwise none, and the
      code is dropped from the aggregation. */
  function Classify(code: string, master: map<string, Class>): (r: Option<Class>)
    ensures HasAffiliatePrefix(code) ==> r == Some(AffiliateClass)
    ensures !HasAffiliatePrefix(code) && code in master ==> r == Some(master[code])
    ensures r.None? <==> !HasAffiliatePrefix(code) && code !in master
  {
    if HasAffiliatePrefix(code) then Some(AffiliateClass)
    else if code in master then Some(master[code])
    else None
  }

  /** A code without an affiliate prefix gets the bucket of its master row
      from the code-keyed master. */
  lemma ClassifyFromRecords(records: seq<AdCodeRecord>, i: int)
    requires MasterMap(records).Some? && 0 <= i < |records|
    requires !HasAffiliatePrefix(records[i].code)
    ensures Classify(records[i].code, MasterMap(records).value) == Some(Class(records[i].media, records[i].category))
  {
  }

  /** The uploaded CV log: column 0 holds the date, column `1 + j` the daily
      count of ad code `codes[j]`. */
  datatype CvLog = CvLog(codes: seq<string>, rows: seq<Row>)

  predicate WellFormedLog(log: CvLog) {
    forall i :: 0 <= i < |log.rows| ==> |log.rows[i]| == |log.codes| + 1
  }

  /** An element of `result_list`: a classified code and its summed count. */
  datatype CodeSum = CodeSum(code: string, cls: Class, cv: int)

  /** Walks the ad-code columns from column `first` on, keeping a code sum
      for each classified code. */
  function SumColumns(codes: seq<string>, first: nat, filtered: seq<Row>, master: map<string, Class>): (r: seq<CodeSum>)
    ensures |r| <= |codes|
    decreases |codes|
  {
    if |codes| == 0 then []
    else
      var rest := SumColumns(codes[1..], first + 1, filtered, master);
      match Classify(codes[0], master)
      case Some(cls) => [CodeSum(codes[0], cls, ColumnSum(filtered, first))] + rest
      case None => rest
  }

  /** Every kept code sum is the sum of a classified column. */
  lemma {:induction false} SumColumnsSound(codes: seq<string>, first: nat, filtered: seq<Row>, master: map<string, Class>)
    ensures forall e :: e in SumColumns(codes, first, filtered, master) ==> SumsColumn(codes, first, filtered, master, e)
    decreases |codes|
  {
    if |codes| > 0 {
      var rest := SumColumns(codes[1..], first + 1, filtered, master);
      var r := SumColumns(codes, first, filtered, master);
      SumColumnsSound(codes[1..], first + 1, filtered, master);
      forall e | e in r ensures SumsColumn(codes, first, filtered, master, e) {
        if e in rest {
          var j :| ColumnOf(codes[1..], first + 1, filtered, master, e, j);
          assert ColumnOf(codes, first, filtered, master, e, j + 1);
        } else {
          assert ColumnOf(codes, first, filtered, master, e, 0);
        }
      }
    }
  }

  /** Every classified column is kept, with its bucket and its sum. */
  lemma {:induction false} SumColumnsComplete(codes: seq<string>, first: nat, filtered: seq<Row>, master: map<string, Class>, j: int)
    requires 0 <= j < |codes| && Classify(codes[j], master).Some?
    ensures CodeSum(codes[j], Classify(codes[j], master).value, ColumnSum(filtered, first + j))
      in SumColumns(codes, first, filtered, master)
    decreases |codes|
  {
    if j > 0 {
      SumColumnsComplete(codes[1..], first + 1, filtered, master, j - 1);
      assert codes[1..][j - 1] == codes[j];
    }
  }

  /** `e` is the code sum of column `first + j`. */
  ghost predicate ColumnOf(codes: seq<string>, first: nat, filtered: seq<Row>, master: map<string, Class>, e: CodeSum, j: int) {
    && 0 <= j < |codes| && codes[j] == e.code
    && Classify(codes[j], master) == Some(e.cls)
    && e.cv == ColumnSum(filtered, first + j)
  }

  /** `e` is the code sum of some classified column. */
  ghost predicate SumsColumn(codes: seq<string>, first: nat, filtered: seq<Row>, master: map<string, Class>, e: CodeSum) {
    exists j :: ColumnOf(codes, first, filtered, master, e, j)
  }

  /** No code sum is kept exactly when no column's code is classified. */
  lemma {:induction false} SumColumnsEmpty(codes: seq<string>, first: nat, filtered: seq<Row>, master: map<string, Class>)
    ensures |SumColumns(codes, first, filtered, master)| == 0
      <==> forall j :: 0 <= j < |codes| ==> Classify(codes[j], master).None?
    decreases |codes|
  {
    if |codes| > 0 {
      SumColumnsEmpty(codes[1..], first + 1, filtered, master);
      assert forall j :: 1 <= j < |codes| ==> codes[j] == codes[1..][j - 1];
    }
  }

  /** Splitting the columns splits the list: the code sums come one per
      classified column, in column order. */
  lemma {:induction false} SumColumnsAppend(a: seq<string>, b: seq<string>, first: nat, filtered: seq<Row>, master: map<string, Class>)
    ensures SumColumns(a + b, first, filtered, master)
      == SumColumns(a, first, filtered, master) + SumColumns(b, first + |a|, filtered, master)
    decreases |a|
  {
    if |a| == 0 {
      assert a + b == b;
    } else {
      assert (a + b)[1..] == a[1..] + b;
      assert (a + b)[0] == a[0];
      SumColumnsAppend(a[1..], b, first + 1, filtered, master);
    }
  }

  /** Column `first + j` holds code `codes[j]`, which falls into a bucket
      with key `k`. */
  predicate ClassifiedAs(codes: seq<string>, master: map<string, Class>, j: int, k: (string, string)) {
    0 <= j < |codes| && Classify(codes[j], master).Some? && KeyOf(Classify(codes[j], master).value) == k
  }

  /** Reference definition: the sum, over the columns `j` from `from` on
      whose code falls into bucket `k`, of column `first + j`. */
  function ClassSumFrom(codes: seq<string>, first: nat, filtered: seq<Row>, master: map<string, Class>, k: (string, string), from: nat): int
    decreases |codes| - from
  {
    if from >= |codes| then 0
    else
      (if ClassifiedAs(codes, master, from, k) then ColumnSum(filtered, first + from) else 0)
      + ClassSumFrom(codes, first, filtered, master, k, from + 1)
  }

  /** Reference definition: the sum, over the columns `j` from `from` on
      whose code falls into any bucket, of column `first + j`. */
  function ClassifiedTotalFrom(codes: seq<string>, first: nat, filtered: seq<Row>, master: map<string, Class>, from: nat): int
    decreases |codes| - from
  {
    if from >= |codes| then 0
    else
      (if Classify(codes[from], master).Some? then ColumnSum(filtered, first + from) else 0)
      + ClassifiedTotalFrom(codes, first, filtered, master, from + 1)
  }

  /** The code sums of a bucket add up to the bucket's columns' counts:
      no classified column is lost or counted twice. */
  lemma {:induction false} SumColumnsClassSum(codes: seq<string>, first: nat, filtered: seq<Row>, master: map<string, Class>, k: (string, string), from: nat)
    requires from <= |codes|
    ensures SumFor(AsEntries(SumColumns(codes[from..], first + from, filtered, master)), k)
      == ClassSumFrom(codes, first, filtered, master, k, from)
    decreases |codes| - from
  {
    var tail := codes[from..];
    if from < |codes| {
      assert tail[0] == codes[from] && tail[1..] == codes[from + 1..];
      SumColumnsClassSum(codes, first, filtered, master, k, from + 1);
      var rest := SumColumns(tail[1..], first + from + 1, filtered, master);
      match Classify(codes[from], master)
      case Some(cls) =>
        var e := CodeSum(codes[from], cls, ColumnSum(filtered, first + from));
        assert AsEntries([e] + rest) == [AsEntry(e)] + AsEntries(rest);
        assert ([AsEntry(e)] + AsEntries(rest))[1..] == AsEntries(rest);
      case None =>
    }
  }

  /** `SumColumnsClassSum` over all the columns. */
  lemma BucketSum(codes: seq<string>, first: nat, filtered: seq<Row>, master: map<string, Class>, k: (string, string))
    ensures SumFor(AsEntries(SumColumns(codes, first, filtered, master)), k)
      == ClassSumFrom(codes, first, filtered, master, k, 0)
  {
    assert codes[0..] == codes;
    SumColumnsClassSum(codes, first, filtered, master, k, 0);
  }

  /** All code sums together add up to the counts of every classified
      column. */
  lemma {:induction false} SumColumnsTotal(codes: seq<string>, first: nat, filtered: seq<Row>, master: map<string, Class>, from: nat)
    requires from <= |codes|
    ensures Total(AsEntries(SumColumns(codes[from..], first + from, filtered, master)))
      == ClassifiedTotalFrom(codes, first, filtered, master, from)
    decreases |codes| - from
  {
    var tail := codes[from..];
    if from < |codes| {
      assert tail[0] == codes[from] && tail[1..] == codes[from + 1..];
      SumColumnsTotal(codes, first, filtered, master, from + 1);
      var rest := SumColumns(tail[1..], first + from + 1, filtered, master);
      match Classify(codes[from], master)
      case Some(cls) =>
        var e := CodeSum(codes[from], cls, ColumnSum(filtered, first + from));
        assert AsEntries([e] + rest) == [AsEntry(e)] + AsEntries(rest);
        assert ([AsEntry(e)] + AsEntries(rest))[1..] == AsEntries(rest);
      case None =>
    }
  }

  /** A bucket has a code sum exactly when some column's code falls into it. */
  lemma SumColumnsKeys(codes: seq<string>, first: nat, filtered: seq<Row>, master: map<string, Class>)
    ensures forall k :: (k in Keys(AsEntries(SumColumns(codes, first, filtered, master)))
      <==> exists j :: ClassifiedAs(codes, master, j, k))
  {
    var list := SumColumns(codes, first, filtered, master);
    var es := AsEntries(list);
    SumColumnsSound(codes, first, filtered, master);
    forall k: (string, string) | k in Keys(es) ensures exists j :: ClassifiedAs(codes, master, j, k) {
      var i :| 0 <= i < |es| && Keys(es)[i] == k;
      assert list[i] in list;
      var j :| ColumnOf(codes, first, filtered, master, list[i], j);
      assert ClassifiedAs(codes, master, j, k);
    }
    forall k: (string, string) | exists j :: ClassifiedAs(codes, master, j, k) ensures k in Keys(es) {
      var j :| ClassifiedAs(codes, master, j, k);
      SumColumnsComplete(codes, first, filtered, master, j);
      var e := CodeSum(codes[j], Classify(codes[j], master).value, ColumnSum(filtered, first + j));
      var i :| 0 <= i < |list| && list[i] == e;
      assert Keys(es)[i] == k;
    }
  }

  /** The grouped table's buckets are those some column's code falls into. */
  lemma GroupedColumnsKeys(codes: seq<string>, filtered: seq<Row>, master: map<string, Class>)
    ensures forall k :: (k in Keys(GroupCv(SumColumns(codes, 1, filtered, master)))
      <==> exists j :: ClassifiedAs(codes, master, j, k))
  {
    var list := SumColumns(codes, 1, filtered, master);
    SumColumnsKeys(codes, 1, filtered, master);
    AsEntriesKeys(list);
  }

  /** Each bucket of the grouped table holds the reference sum of its
      columns. */
  lemma GroupedColumnsSums(codes: seq<string>, filtered: seq<Row>, master: map<string, Class>)
    ensures var r := GroupCv(SumColumns(codes, 1, filtered, master));
      forall i :: 0 <= i < |r| ==> r[i].amount == ClassSumFrom(codes, 1, filtered, master, r[i].key, 0)
  {
    var list := SumColumns(codes, 1, filtered, master);
    var r := GroupCv(list);
    forall i | 0 <= i < |r| ensures r[i].amount == ClassSumFrom(codes, 1, filtered, master, r[i].key, 0) {
      assert r[i].amount == SumFor(AsEntries(list), r[i].key);
      BucketSum(codes, 1, filtered, master, r[i].key);
    }
  }

  /** The grouped table's grand total is the count of every classified
      column. */
  lemma GroupedColumnsTotal(codes: seq<string>, filtered: seq<Row>, master: map<string, Class>)
    ensures Total(GroupCv(SumColumns(codes, 1, filtered, master))) == ClassifiedTotalFrom(codes, 1, filtered, master, 0)
  {
    assert codes[0..] == codes;
    SumColumnsTotal(codes, 1, filtered, master, 0);
  }

  /** `result_list`: for every classified code, in column order, the sum of
      its counts over the log rows dated inside [start, end]. */
  function CodeSums(log: CvLog, master: map<string, Class>, parse: Parser, start: Date, end: Date): seq<CodeSum> {
    SumColumns(log.codes, 1, FilterByDate(log.rows, 0, parse, start, end), master)
  }

  /** The group key of a bucket: (分類, 媒体). */
  function KeyOf(c: Class): (string, string) {
    (c.category, c.media)
  }

  /** A code sum as a group-by row. */
  function AsEntry(e: CodeSum): Entry<(string, string)> {
    Entry(KeyOf(e.cls), e.cv)
  }

  function AsEntries(list: seq<CodeSum>): (es: seq<Entry<(string, string)>>)
    ensures |es| == |list|
    ensures forall i :: 0 <= i < |list| ==> es[i] == AsEntry(list[i])
  {
    if |list| == 0 then [] else [AsEntry(list[0])] + AsEntries(list[1..])
  }

  /** Order of the grouped table: by category, then by media. */
  function KeyLt(): ((string, string), (string, string)) -> bool {
    Lex(StrLt, StrLt)
  }

  lemma KeyLtIsStrictTotal()
    ensures StrictTotalOrder(KeyLt())
  {
    StrLtIsStrictTotal();
    LexIsStrictTotal(StrLt, StrLt);
  }

  /** `cv_result`: one row per (category, media) bucket that some classified
      code falls into, in ascending order, each holding the sum of its codes'
      counts. An empty `result_list` gives an empty table. */
  function GroupCv(list: seq<CodeSum>): (r: seq<Entry<(string, string)>>)
    ensures Sorted(Keys(r), KeyLt())
    ensures forall k :: k in Keys(r) <==> exists i :: 0 <= i < |list| && AsEntry(list[i]).key == k
    ensures forall i :: 0 <= i < |r| ==> r[i].amount == SumFor(AsEntries(list), r[i].key)
    ensures Total(r) == Total(AsEntries(list))
  {
    KeyLtIsStrictTotal();
    GroupedTotal(AsEntries(list), KeyLt());
    AsEntriesKeys(list);
    Grouped(AsEntries(list), KeyLt())
  }

  lemma AsEntriesKeys(list: seq<CodeSum>)
    ensures forall k :: k in Keys(AsEntries(list)) <==> exists i :: 0 <= i < |list| && AsEntry(list[i]).key == k
  {
    var es := AsEntries(list);
    forall k | k in Keys(es) ensures exists i :: 0 <= i < |list| && AsEntry(list[i]).key == k {
      var i :| 0 <= i < |es| && Keys(es)[i] == k;
      assert AsEntry(list[i]).key == k;
    }
    forall k | exists i :: 0 <= i < |list| && AsEntry(list[i]).key == k ensures k in Keys(es) {
      var i :| 0 <= i < |list| && AsEntry(list[i]).key == k;
      assert Keys(es)[i] == k;
    }
  }

  /** The same step as the script writes it: `pd.DataFrame([])` has no
      分類 or 媒体 column, so grouping an empty `result_list` raises instead
      of producing an empty table (`None` here). */
  function GroupCvAsWritten(list: seq<CodeSum>): (r: Option<seq<Entry<(string, string)>>>)
    ensures r.None? <==> |list| == 0
    ensures r.Some? ==> r.value == GroupCv(list)
  {
    if |list| == 0 then None else Some(GroupCv(list))
  }

  /** A CV log whose only ad code is neither affiliate-prefixed nor in the
      master table: the script fails where an empty table was intended. */
  lemma UnclassifiedLogFails(parse: Parser, start: Date, end: Date)
    ensures var log := CvLog(["XYZ1"], []);
      && CodeSums(log, map[], parse, start, end) == []
      && GroupCvAsWritten(CodeSums(log, map[], parse, start, end)).None?
      && GroupCv(CodeSums(log, map[], parse, start, end)) == []
  {
    assert !HasAffiliatePrefix("XYZ1") by {
      assert "XYZ1"[..3][0] == 'X';
      forall p | p in AffiliatePrefixes ensures !StartsWith("XYZ1", p) {
        assert p[0] != 'X';
      }
    }
    var list := CodeSums(CvLog(["XYZ1"], []), map[], parse, start, end);
    assert list == [];
    assert Keys(GroupCv(list)) == [] by {
      assert forall k :: k !in Keys(GroupCv(list));
    }
  }

  /** The summed counts are plain numbers wherever the script adds them. */
  predicate CountsNumeric(log: CvLog, master: map<string, Class>, parse: Parser, start: Date, end: Date) {
    var filtered := FilterByDate(log.rows, 0, parse, start, end);
    forall j, row :: 0 <= j < |log.codes| && row in filtered && Classify(log.codes[j], master).Some? && j + 1 < |row|
      ==> Numeric(row[j + 1])
  }

  /** The conversion table of the report: every bucket's total is the sum,
      over the codes classified into it, of their counts on the days inside
      [start, end]; the grand total is the sum over all classified codes. */
  function CvReport(log: CvLog, master: map<string, Class>, parse: Parser, start: Date, end: Date): (r: seq<Entry<(string, string)>>)
    requires WellFormedLog(log) && CountsNumeric(log, master, parse, start, end)
    ensures Sorted(Keys(r), KeyLt())
    ensures forall k :: k in Keys(r) <==> exists j :: ClassifiedAs(log.codes, master, j, k)
    ensures forall i :: 0 <= i < |r| ==>
      r[i].amount == ClassSumFrom(log.codes, 1, FilterByDate(log.rows, 0, parse, start, end), master, r[i].key, 0)
    ensures Total(r) == ClassifiedTotalFrom(log.codes, 1, FilterByDate(log.rows, 0, parse, start, end), master, 0)
  {
    var filtered := FilterByDate(log.rows, 0, parse, start, end);
    GroupedColumnsKeys(log.codes, filtered, master);
    GroupedColumnsSums(log.codes, filtered, master);
    GroupedColumnsTotal(log.codes, filtered, master);
    GroupCv(CodeSums(log, master, parse, start, end))
  }

  /** As written, the report fails exactly on a log none of whose codes is
      classified; the intended report is then empty. */
  lemma CvReportAsWritten(log: CvLog, master: map<string, Class>, parse: Parser, start: Date, end: Date)
    requires WellFormedLog(log) && CountsNumeric(log, master, parse, start, end)
    ensures GroupCvAsWritten(CodeSums(log, master, parse, start, end)).None?
      <==> forall j :: 0 <= j < |log.codes| ==> Classify(log.codes[j], master).None?
    ensures GroupCvAsWritten(CodeSums(log, master, parse, start, end)).None?
      ==> CvReport(log, master, parse, start, end) == []
  {
    SumColumnsEmpty(log.codes, 1, FilterByDate(log.rows, 0, parse, start, end), master);
    var r := CvReport(log, master, parse, start, end);
    if forall j :: 0 <= j < |log.codes| ==> Classify(log.codes[j], master).None? {
      assert forall k :: k !in Keys(r);
      assert |Keys(r)| == 0;
    }
  }

  /** An affiliate-prefixed column puts its bucket into the grouped table. */
  lemma AffiliateGrouped(codes: seq<string>, filtered: seq<Row>, master: map<string, Class>, j: int)
    requires 0 <= j < |codes| && HasAffiliatePrefix(codes[j])
    ensures ("Affiliate", "Affiliate") in Keys(GroupCv(SumColumns(codes, 1, filtered, master)))
  {
    var list := SumColumns(codes, 1, filtered, master);
    SumColumnsComplete(codes, 1, filtered, master, j);
    var e := CodeSum(codes[j], AffiliateClass, ColumnSum(filtered, 1 + j));
    assert e in list;
    var i :| 0 <= i < |list| && list[i] == e;
    assert AsEntry(list[i]).key == ("Affiliate", "Affiliate");
  }

  /** An affiliate-prefixed code always lands in the Affiliate/Affiliate
      bucket, whatever the master table says about it. */
  lemma AffiliateBucketPresent(log: CvLog, master: map<string, Class>, parse: Parser, start: Date, end: Date, j: int)
    requires WellFormedLog(log) && CountsNumeric(log, master, parse, start, end)
    requires 0 <= j < |log.codes| && HasAffiliatePrefix(log.codes[j])
    ensures ("Affiliate", "Affiliate") in Keys(CvReport(log, master, parse, start, end))
  {
    AffiliateGrouped(log.codes, FilterByDate(log.rows, 0, parse, start, end), master, j);
  }
}

=== FILE: cost_sheets.dfy ===
/** Which cost-report sheets are processed and where their numbers live.
    A sheet is selected by a keyword in its name, its type follows from the
    same keywords (Listing before Display before affiliate), and each type
    has a fixed date column and a fixed label-to-column table; positions are
    0-based `iloc` offsets and never read from header text. */
module CostSheets {
  import opened Strings
  import opened Dates
  import opened Tables
  import opened Grouping

  datatype SheetType = Listing | Display | Affiliate

  /** The name keywords that make a sheet a target (case-sensitive). */
  const TargetKeywords: seq<string> := ["Listing", "Display", "affiliate"]

  /** `any(k in sheet for k in ["Listing", "Display", "affiliate"])`. */
  predicate IsTarget(name: string) {
    exists k :: k in TargetKeywords && Contains(name, k)
  }

  /** The sheet type: Listing if the name contains "Listing", else Display
      if it contains "Display", else the affiliate type. */
  function TypeOf(name: string): (t: SheetType)
    ensures t == Listing <==> Occurs(name, "Listing")
    ensures t == Display <==> !Occurs(name, "Listing") && Occurs(name, "Display")
    ensures t == Affiliate <==> !Occurs(name, "Listing") && !Occurs(name, "Display")
  {
    ContainsOccurs(name, "Listing");
    ContainsOccurs(name, "Display");
    if Contains(name, "Listing") then Listing
    else if Contains(name, "Display") then Display
    else Affiliate
  }

  /** A selected sheet typed as affiliate really has "affiliate" in its name. */
  lemma AffiliateTargetNamed(name: string)
    requires IsTarget(name) && TypeOf(name) == Affiliate
    ensures Occurs(name, "affiliate")
  {
    ContainsOccurs(name, "Listing");
    ContainsOccurs(name, "Display");
    ContainsOccurs(name, "affiliate");
  }

  /** A labelled amount column: the label `name` is summed from offset `offset`. */
  datatype Column = Column(name: string, offset: nat)

  /** The offset of the date column. */
  function DateOffset(t: SheetType): (c: nat)
    ensures c <= 1
    ensures forall i :: 0 <= i < |Columns(t)| ==> c < Columns(t)[i].offset
  {
    if t == Affiliate then 0 else 1
  }

  /** The date sits in column 1 exactly for sheets named as Listing or
      Display, and in column 0 for every other selected sheet. */
  lemma DateOffsetByName(name: string)
    ensures DateOffset(TypeOf(name)) == 1 <==> Occurs(name, "Listing") || Occurs(name, "Display")
    ensures DateOffset(TypeOf(name)) == 0 <==> !Occurs(name, "Listing") && !Occurs(name, "Display")
  {
  }

  function Labels(cs: seq<Column>): (ls: seq<string>)
    ensures |ls| == |cs|
    ensures forall i :: 0 <= i < |cs| ==> ls[i] == cs[i].name
  {
    if |cs| == 0 then [] else [cs[0].name] + Labels(cs[1..])
  }

  /** `columns_to_sum` for each sheet type, in the scripts' dict order. */
  function Columns(t: SheetType): (cs: seq<Column>)
    ensures |cs| == (match t case Listing => 8 case Display => 10 case Affiliate => 1)
    ensures forall i, j :: 0 <= i < j < |cs| ==> cs[i].offset < cs[j].offset
  {
    match t
    case Listing =>
      [ Column("Listing ALL", 17), Column("Google単体", 53), Column("Google単体以外", 89),
        Column("Googleその他", 125), Column("Yahoo単体", 161), Column("Yahoo単体以外", 197),
        Column("Microsoft単体", 233), Column("Microsoft単体以外", 269) ]
    case Display =>
      [ Column("Display ALL", 17), Column("Meta", 53), Column("X", 89), Column("LINE", 125),
        Column("YDA", 161), Column("TTD", 199), Column("TikTok", 235), Column("GDN", 271),
        Column("CRITEO", 307), Column("RUNA", 343) ]
    case Affiliate =>
      [ Column("AFF ALL", 20) ]
  }

  /** No label appears twice in a table, so each sheet gets exactly one
      result per label. */
  lemma LabelsDistinct(t: SheetType)
    ensures Distinct(Labels(Columns(t)))
  {
    var cs := Columns(t);
    match t
    case Listing =>
      assert forall i, j :: 0 <= i < j < |cs| ==> cs[i].name != cs[j].name;
    case Display =>
      assert forall i, j :: 0 <= i < j < |cs| ==> cs[i].name != cs[j].name;
    case Affiliate =>
  }

  /** A cost-report sheet as loaded: its name, its number of columns, and its
      data rows. */
  datatype Sheet = Sheet(name: string, width: nat, rows: seq<Row>)

  /** Rectangular and wide enough to hold its date column; both scripts
      raise on a narrower sheet. */
  predicate Processable(s: Sheet) {
    && DateOffset(TypeOf(s.name)) < s.width
    && forall i :: 0 <= i < |s.rows| ==> |s.rows[i]| == s.width
  }

  /** The sheet's rows dated inside [start, end], read at its date offset. */
  function FilteredRows(s: Sheet, parse: Parser, start: Date, end: Date): seq<Row> {
    FilterByDate(s.rows, DateOffset(TypeOf(s.name)), parse, start, end)
  }

  /** The selected sheets, in workbook order. */
  function TargetsOf(book: seq<Sheet>): (r: seq<Sheet>)
    ensures |r| <= |book|
    ensures forall s :: s in r <==> s in book && IsTarget(s.name)
  {
    if |book| == 0 then []
    else
      var rest := TargetsOf(book[1..]);
      assert forall s :: s in book <==> s == book[0] || s in book[1..];
      if IsTarget(book[0].name) then [book[0]] + rest else rest
  }

  /** Selecting splits over a split workbook, so the selected sheets keep
      their workbook order. */
  lemma {:induction false} TargetsOfAppend(a: seq<Sheet>, b: seq<Sheet>)
    ensures TargetsOf(a + b) == TargetsOf(a) + TargetsOf(b)
  {
    if |a| == 0 {
      assert a + b == b;
    } else {
      assert (a + b)[1..] == a[1..] + b;
      TargetsOfAppend(a[1..], b);
    }
  }
}

=== FILE: daily_pivot.dfy ===
/** The daily cost breakdown of the dashboard: for every selected sheet, the
    amounts of each extractable label are paired with the row's day, summed
    per (day, label), and pivoted into a day-by-label table whose absent
    combinations read 0. */
module DailyPivot {
  import opened Wrappers
  import opened Order
  import opened Strings
  import opened Dates
  import opened Tables
  import opened Grouping
  import opened CostSheets
  import opened LabelTotals

  /** The labels whose column exists; selecting a column past the last one
      raises inside the `try`, and that label alone is skipped. */
  function Extractable(cs: seq<Column>, width: nat): (r: seq<Column>)
    ensures forall c :: c in r <==> c in cs && c.offset < width
  {
    if |cs| == 0 then []
    else
      var rest := Extractable(cs[1..], width);
      assert forall c :: c in cs <==> c == cs[0] || c in cs[1..];
      if cs[0].offset < width then [cs[0]] + rest else rest
  }

  /** Extracting keeps a table's labels apart. */
  lemma {:induction false} ExtractableDistinct(cs: seq<Column>, width: nat)
    requires Distinct(Labels(cs))
    ensures Distinct(Labels(Extractable(cs, width)))
  {
    if |cs| > 0 {
      var tail := cs[1..];
      assert Labels(cs) == [cs[0].name] + Labels(tail);
      assert Distinct(Labels(tail));
      assert cs[0].name !in Labels(tail);
      ExtractableDistinct(tail, width);
      if cs[0].offset < width {
        var rest := Extractable(tail, width);
        LabelsOfSubset(rest, tail, cs[0].name);
        assert Labels([cs[0]] + rest) == [cs[0].name] + Labels(rest);
      }
    }
  }

  /** A label absent from a table is absent from any part of it. */
  lemma LabelsOfSubset(xs: seq<Column>, ys: seq<Column>, n: string)
    requires forall c :: c in xs ==> c in ys
    requires n !in Labels(ys)
    ensures n !in Labels(xs)
  {
    forall i | 0 <= i < |xs| ensures Labels(xs)[i] != n {
      assert xs[i] in xs;
      var m :| 0 <= m < |ys| && ys[m] == xs[i];
      assert Labels(ys)[m] == xs[i].name;
    }
  }

  /** A row's amount at `off`; a missing cell counts 0. */
  function CellAt(row: Row, off: nat): int {
    if off < |row| then Value(row[off]) else 0
  }

  /** Reference definition: the amounts at `off` of the rows dated `d`. */
  function DaySum(rows: seq<Row>, dateCol: nat, parse: Parser, d: Date, off: nat): int {
    if |rows| == 0 then 0
    else
      var here := if DateAt(rows[0], dateCol, parse) == Some(d) then CellAt(rows[0], off) else 0;
      here + DaySum(rows[1..], dateCol, parse, d, off)
  }

  /** One label's (day, amount) pairs, in row order; rows without a day are
      dropped, as grouping drops `NaT` keys. */
  function DatedAmounts(rows: seq<Row>, dateCol: nat, parse: Parser, off: nat): seq<Entry<Date>> {
    if |rows| == 0 then []
    else
      var rest := DatedAmounts(rows[1..], dateCol, parse, off);
      match DateAt(rows[0], dateCol, parse)
      case Some(d) => [Entry(d, CellAt(rows[0], off))] + rest
      case None => rest
  }

  lemma {:induction false} DatedAmountsSum(rows: seq<Row>, dateCol: nat, parse: Parser, off: nat, d: Date)
    ensures SumFor(DatedAmounts(rows, dateCol, parse, off), d) == DaySum(rows, dateCol, parse, d, off)
  {
    if |rows| > 0 {
      DatedAmountsSum(rows[1..], dateCol, parse, off, d);
    }
  }

  lemma {:induction false} DatedAmountsKeys(rows: seq<Row>, dateCol: nat, parse: Parser, off: nat)
    ensures forall d :: (d in Keys(DatedAmounts(rows, dateCol, parse, off))
      <==> exists i :: 0 <= i < |rows| && DateAt(rows[i], dateCol, parse) == Some(d))
  {
    if |rows| > 0 {
      DatedAmountsKeys(rows[1..], dateCol, parse, off);
      assert forall i :: 1 <= i < |rows| ==> rows[i] == rows[1..][i - 1];
      var rest := DatedAmounts(rows[1..], dateCol, parse, off);
      match DateAt(rows[0], dateCol, parse)
      case Some(d0) =>
        assert Keys([Entry(d0, CellAt(rows[0], off))] + rest) == [d0] + Keys(rest);
      case None =>
    }
  }

  /** Without a day, the sum over all rows is the plain column sum. */
  lemma {:induction false} DatedAmountsTotal(rows: seq<Row>, dateCol: nat, parse: Parser, off: nat)
    requires forall i :: 0 <= i < |rows| ==> DateAt(rows[i], dateCol, parse).Some?
    ensures Total(DatedAmounts(rows, dateCol, parse, off)) == ColumnSum(rows, off)
  {
    if |rows| > 0 {
      assert forall i :: 0 <= i < |rows[1..]| ==> rows[1..][i] == rows[i + 1];
      DatedAmountsTotal(rows[1..], dateCol, parse, off);
    }
  }

  /** The `(day, label)` keyed pairs of one label (its `temp_df`). */
  function Relabel(es: seq<Entry<Date>>, l: string): (r: seq<Entry<(Date, string)>>)
    ensures |r| == |es|
    ensures forall i :: 0 <= i < |es| ==> r[i] == Entry((es[i].key, l), es[i].amount)
  {
    if |es| == 0 then [] else [Entry((es[0].key, l), es[0].amount)] + Relabel(es[1..], l)
  }

  lemma {:induction false} RelabelSum(es: seq<Entry<Date>>, l: string, k: (Date, string))
    ensures SumFor(Relabel(es, l), k) == (if k.1 == l then SumFor(es, k.0) else 0)
  {
    if |es| > 0 {
      RelabelSum(es[1..], l, k);
      assert Relabel(es, l)[1..] == Relabel(es[1..], l);
    }
  }

  lemma RelabelKeys(es: seq<Entry<Date>>, l: string)
    ensures forall k :: k in Keys(Relabel(es, l)) <==> k.1 == l && k.0 in Keys(es)
  {
    var r := Relabel(es, l);
    forall k: (Date, string) | k in Keys(r) ensures k.1 == l && k.0 in Keys(es) {
      var i :| 0 <= i < |r| && Keys(r)[i] == k;
      assert Keys(es)[i] == k.0;
    }
    forall k: (Date, string) | k.1 == l && k.0 in Keys(es) ensures k in Keys(r) {
      var i :| 0 <= i < |es| && Keys(es)[i] == k.0;
      assert Keys(r)[i] == k;
    }
  }

  /** `pd.concat(daily_rows)`: the pairs of every extractable label, label
      after label. */
  function DailyEntries(rows: seq<Row>, dateCol: nat, parse: Parser, cs: seq<Column>): seq<Entry<(Date, string)>> {
    if |cs| == 0 then []
    else
      Relabel(DatedAmounts(rows, dateCol, parse, cs[0].offset), cs[0].name)
      + DailyEntries(rows, dateCol, parse, cs[1..])
  }

  /** The (day, label) total of the concatenated pairs is that label's day
      sum, because no label appears twice. */
  lemma {:induction false} DailyEntriesSum(rows: seq<Row>, dateCol: nat, parse: Parser, cs: seq<Column>, d: Date, l: string)
    requires Distinct(Labels(cs))
    ensures forall c :: c in cs && c.name == l ==>
      SumFor(DailyEntries(rows, dateCol, parse, cs), (d, l)) == DaySum(rows, dateCol, parse, d, c.offset)
    ensures l !in Labels(cs) ==> SumFor(DailyEntries(rows, dateCol, parse, cs), (d, l)) == 0
  {
    if |cs| > 0 {
      var tail := cs[1..];
      var head := Relabel(DatedAmounts(rows, dateCol, parse, cs[0].offset), cs[0].name);
      assert Labels(cs) == [cs[0].name] + Labels(tail);
      assert Distinct(Labels(tail));
      DailyEntriesSum(rows, dateCol, parse, tail, d, l);
      SumForAppend(head, DailyEntries(rows, dateCol, parse, tail), (d, l));
      RelabelSum(DatedAmounts(rows, dateCol, parse, cs[0].offset), cs[0].name, (d, l));
      DatedAmountsSum(rows, dateCol, parse, cs[0].offset, d);
      if cs[0].name == l {
        assert l !in Labels(tail);
        forall c | c in tail ensures c.name != l {
          InLabels(tail, c);
        }
      }
    }
  }

  /** A column's label is among its table's labels. */
  lemma InLabels(cs: seq<Column>, c: Column)
    requires c in cs
    ensures c.name in Labels(cs)
  {
    var i :| 0 <= i < |cs| && cs[i] == c;
    assert Labels(cs)[i] == c.name;
  }

  /** The pairs' keys: every extractable label with every day of a row. */
  lemma {:induction false} DailyEntriesKeys(rows: seq<Row>, dateCol: nat, parse: Parser, cs: seq<Column>)
    ensures forall k :: (k in Keys(DailyEntries(rows, dateCol, parse, cs))
      <==> k.1 in Labels(cs) && exists i :: 0 <= i < |rows| && DateAt(rows[i], dateCol, parse) == Some(k.0))
  {
    if |cs| > 0 {
      var es := DatedAmounts(rows, dateCol, parse, cs[0].offset);
      DailyEntriesKeys(rows, dateCol, parse, cs[1..]);
      DatedAmountsKeys(rows, dateCol, parse, cs[0].offset);
      RelabelKeys(es, cs[0].name);
      KeysAppend(Relabel(es, cs[0].name), DailyEntries(rows, dateCol, parse, cs[1..]));
      assert Labels(cs) == [cs[0].name] + Labels(cs[1..]);
    }
  }

  /** `DailyEntriesKeys` for one key. */
  lemma DailyEntriesKey(rows: seq<Row>, dateCol: nat, parse: Parser, cs: seq<Column>, k: (Date, string))
    ensures k in Keys(DailyEntries(rows, dateCol, parse, cs))
      <==> k.1 in Labels(cs) && exists i :: 0 <= i < |rows| && DateAt(rows[i], dateCol, parse) == Some(k.0)
  {
    DailyEntriesKeys(rows, dateCol, parse, cs);
  }

  /** Order of `daily_grouped`: by day, then by label. */
  function DayLabelLt(): ((Date, string), (Date, string)) -> bool {
    Lex(DateLt, StrLt)
  }

  lemma DayLabelLtIsStrictTotal()
    ensures StrictTotalOrder(DayLabelLt())
  {
    DateLtIsStrictTotal();
    StrLtIsStrictTotal();
    LexIsStrictTotal(DateLt, StrLt);
  }

  /** A pivot table: row keys (days), column keys (labels), and one cell per
      row and column. */
  datatype Pivot = Pivot(dates: seq<Date>, labels: seq<string>, cells: seq<seq<int>>)

  function Days(ks: seq<(Date, string)>): (ds: seq<Date>)
    ensures forall d :: d in ds <==> exists k :: k in ks && k.0 == d
  {
    if |ks| == 0 then []
    else
      assert forall k :: k in ks <==> k == ks[0] || k in ks[1..];
      [ks[0].0] + Days(ks[1..])
  }

  function LabelsOf(ks: seq<(Date, string)>): (ls: seq<string>)
    ensures forall l :: l in ls <==> exists k :: k in ks && k.1 == l
  {
    if |ks| == 0 then []
    else
      assert forall k :: k in ks <==> k == ks[0] || k in ks[1..];
      [ks[0].1] + LabelsOf(ks[1..])
  }

  /** `pivot(index="日付", columns="項目", values="金額").fillna(0)`: rows are
      the distinct days in ascending order, columns the distinct labels in
      ascending order, and a combination with no grouped entry reads 0. */
  function PivotOf(g: seq<Entry<(Date, string)>>): (p: Pivot)
    ensures Sorted(p.dates, DateLt) && Sorted(p.labels, StrLt)
    ensures forall d :: d in p.dates <==> exists k :: k in Keys(g) && k.0 == d
    ensures forall l :: l in p.labels <==> exists k :: k in Keys(g) && k.1 == l
    ensures |p.cells| == |p.dates|
    ensures forall i :: 0 <= i < |p.dates| ==> |p.cells[i]| == |p.labels|
    ensures forall i, j :: 0 <= i < |p.dates| && 0 <= j < |p.labels| ==>
      p.cells[i][j] == Lookup(g, (p.dates[i], p.labels[j])).ValueOr(0)
  {
    DateLtIsStrictTotal();
    StrLtIsStrictTotal();
    var ds := SortUnique(Days(Keys(g)), DateLt);
    var ls := SortUnique(LabelsOf(Keys(g)), StrLt);
    Pivot(ds, ls, seq(|ds|, i requires 0 <= i < |ds| =>
      seq(|ls|, j requires 0 <= j < |ls| => Lookup(g, (ds[i], ls[j])).ValueOr(0))))
  }

  /** `daily_grouped`: pairs summed per (day, label), sorted by day, then
      label. */
  function GroupDaily(es: seq<Entry<(Date, string)>>): (g: seq<Entry<(Date, string)>>)
    ensures Sorted(Keys(g), DayLabelLt())
    ensures forall k :: k in Keys(g) <==> k in Keys(es)
    ensures forall k :: Lookup(g, k).ValueOr(0) == SumFor(es, k)
  {
    DayLabelLtIsStrictTotal();
    var g := Grouped(es, DayLabelLt());
    assert forall k :: Lookup(g, k).ValueOr(0) == SumFor(es, k) by {
      forall k ensures Lookup(g, k).ValueOr(0) == SumFor(es, k) {
        GroupedSums(es, DayLabelLt(), k);
      }
    }
    g
  }

  /** The day-by-label table of the given rows and labels. */
  function LabelPivot(rows: seq<Row>, dateCol: nat, parse: Parser, cs: seq<Column>): Pivot {
    PivotOf(GroupDaily(DailyEntries(rows, dateCol, parse, cs)))
  }

  /** With at least one label, the table's rows are exactly the rows' days. */
  lemma LabelPivotDates(rows: seq<Row>, dateCol: nat, parse: Parser, cs: seq<Column>)
    requires |cs| > 0
    ensures forall d :: (d in LabelPivot(rows, dateCol, parse, cs).dates <==>
      exists i :: 0 <= i < |rows| && DateAt(rows[i], dateCol, parse) == Some(d))
  {
    DailyEntriesKeys(rows, dateCol, parse, cs);
    assert cs[0].name in Labels(cs);
    var g := GroupDaily(DailyEntries(rows, dateCol, parse, cs));
    forall d | exists i :: 0 <= i < |rows| && DateAt(rows[i], dateCol, parse) == Some(d)
      ensures (d, cs[0].name) in Keys(g)
    {
    }
  }

  /** When every row has a day, the table's columns are all the labels, or
      none when there is no row. */
  lemma LabelPivotLabels(rows: seq<Row>, dateCol: nat, parse: Parser, cs: seq<Column>)
    requires forall i :: 0 <= i < |rows| ==> DateAt(rows[i], dateCol, parse).Some?
    ensures forall l :: (l in LabelPivot(rows, dateCol, parse, cs).labels <==> |rows| > 0 && l in Labels(cs))
  {
    var es := DailyEntries(rows, dateCol, parse, cs);
    var g := GroupDaily(es);
    var p := PivotOf(g);
    forall l ensures l in p.labels <==> |rows| > 0 && l in Labels(cs) {
      if l in p.labels {
        var k: (Date, string) :| k in Keys(g) && k.1 == l;
        DailyEntriesKey(rows, dateCol, parse, cs, k);
      }
      if |rows| > 0 && l in Labels(cs) {
        var k := (DateAt(rows[0], dateCol, parse).value, l);
        DailyEntriesKey(rows, dateCol, parse, cs, k);
        assert k in Keys(g);
      }
    }
  }

  /** With distinct labels, each cell is its label's amounts summed over
      the rows of its day. */
  lemma LabelPivotCells(rows: seq<Row>, dateCol: nat, parse: Parser, cs: seq<Column>)
    requires Distinct(Labels(cs))
    ensures var p := LabelPivot(rows, dateCol, parse, cs);
      forall i, j, c :: 0 <= i < |p.dates| && 0 <= j < |p.labels| && c in cs && c.name == p.labels[j] ==>
        p.cells[i][j] == DaySum(rows, dateCol, parse, p.dates[i], c.offset)
  {
    var p := LabelPivot(rows, dateCol, parse, cs);
    forall i, j, c | 0 <= i < |p.dates| && 0 <= j < |p.labels| && c in cs && c.name == p.labels[j]
      ensures p.cells[i][j] == DaySum(rows, dateCol, parse, p.dates[i], c.offset)
    {
      DailyEntriesSum(rows, dateCol, parse, cs, p.dates[i], p.labels[j]);
    }
  }

  /** The labels of a sheet that have a column. */
  function SheetLabels(s: Sheet): seq<Column> {
    Extractable(Columns(TypeOf(s.name)), s.width)
  }

  /** Every value of the column at `off` is a number or empty. */
  predicate ColumnNumeric(rows: seq<Row>, off: nat) {
    forall i :: 0 <= i < |rows| && off < |rows[i]| ==> Numeric(rows[i][off])
  }

  /** The amounts of every label that has a column are numbers or empty on
      the kept rows; the script's grouped sum does not add them otherwise. */
  predicate AmountsNumeric(s: Sheet, parse: Parser, start: Date, end: Date) {
    forall j :: 0 <= j < |SheetLabels(s)| ==> ColumnNumeric(FilteredRows(s, parse, start, end), SheetLabels(s)[j].offset)
  }

  /** The pivot of one sheet, or `None` when none of its labels has a
      column, in which case the sheet adds nothing to the results. */
  function SheetPivot(s: Sheet, parse: Parser, start: Date, end: Date): (r: Option<Pivot>)
    requires Processable(s) && AmountsNumeric(s, parse, start, end)
    ensures r.None? <==> forall c :: c in Columns(TypeOf(s.name)) ==> c.offset >= s.width
  {
    var cs := SheetLabels(s);
    if |cs| == 0 then None
    else
      assert cs[0] in Columns(TypeOf(s.name));
      Some(LabelPivot(FilteredRows(s, parse, start, end), DateOffset(TypeOf(s.name)), parse, cs))
  }

  /** The rows of a sheet's pivot are exactly the days of its kept rows. */
  lemma SheetPivotDates(s: Sheet, parse: Parser, start: Date, end: Date)
    requires Processable(s) && AmountsNumeric(s, parse, start, end)
    ensures SheetPivot(s, parse, start, end).Some? ==>
      var p := SheetPivot(s, parse, start, end).value;
      var rows := FilteredRows(s, parse, start, end);
      forall d :: (d in p.dates <==> exists i :: 0 <= i < |rows| && DateAt(rows[i], DateOffset(TypeOf(s.name)), parse) == Some(d))
  {
    if SheetPivot(s, parse, start, end).Some? {
      LabelPivotDates(FilteredRows(s, parse, start, end), DateOffset(TypeOf(s.name)), parse, SheetLabels(s));
    }
  }

  /** The columns of a sheet's pivot are exactly its labels that have a
      column, or none when no row is kept. */
  lemma SheetPivotLabels(s: Sheet, parse: Parser, start: Date, end: Date)
    requires Processable(s) && AmountsNumeric(s, parse, start, end)
    ensures SheetPivot(s, parse, start, end).Some? ==>
      var p := SheetPivot(s, parse, start, end).value;
      forall l :: (l in p.labels <==> |FilteredRows(s, parse, start, end)| > 0 && l in Labels(SheetLabels(s)))
  {
    FilteredRowsDated(s, parse, start, end);
    LabelPivotLabels(FilteredRows(s, parse, start, end), DateOffset(TypeOf(s.name)), parse, SheetLabels(s));
  }

  /** Each cell of a sheet's pivot is its label's amounts summed over the
      kept rows of its day. */
  lemma SheetPivotCells(s: Sheet, parse: Parser, start: Date, end: Date)
    requires Processable(s) && AmountsNumeric(s, parse, start, end)
    ensures SheetPivot(s, parse, start, end).Some? ==>
      var p := SheetPivot(s, parse, start, end).value;
      forall i, j, c :: 0 <= i < |p.dates| && 0 <= j < |p.labels| && c in SheetLabels(s) && c.name == p.labels[j] ==>
        p.cells[i][j] == DaySum(FilteredRows(s, parse, start, end), DateOffset(TypeOf(s.name)), parse, p.dates[i], c.offset)
  {
    var t := TypeOf(s.name);
    LabelsDistinct(t);
    ExtractableDistinct(Columns(t), s.width);
    LabelPivotCells(FilteredRows(s, parse, start, end), DateOffset(t), parse, SheetLabels(s));
  }

  /** The sum of column `j` of a table. */
  function ColumnTotal(cells: seq<seq<int>>, j: nat): int
    requires forall i :: 0 <= i < |cells| ==> j < |cells[i]|
  {
    if |cells| == 0 then 0 else cells[0][j] + ColumnTotal(cells[1..], j)
  }

  lemma {:induction false} ColumnTotalSumOver(cells: seq<seq<int>>, j: nat, ds: seq<Date>, es: seq<Entry<Date>>)
    requires |cells| == |ds|
    requires forall i :: 0 <= i < |cells| ==> j < |cells[i]| && cells[i][j] == SumFor(es, ds[i])
    ensures ColumnTotal(cells, j) == SumOver(ds, es)
  {
    if |cells| > 0 {
      ColumnTotalSumOver(cells[1..], j, ds[1..], es);
    }
  }

  /** A pivot column sums, day by day, the label's per-day totals. */
  lemma LabelPivotColumnSumOver(rows: seq<Row>, dateCol: nat, parse: Parser, cs: seq<Column>, j: nat, c: Column)
    requires Distinct(Labels(cs))
    requires j < |LabelPivot(rows, dateCol, parse, cs).labels|
    requires c in cs && c.name == LabelPivot(rows, dateCol, parse, cs).labels[j]
    ensures var p := LabelPivot(rows, dateCol, parse, cs);
      ColumnTotal(p.cells, j) == SumOver(p.dates, DatedAmounts(rows, dateCol, parse, c.offset))
  {
    var p := LabelPivot(rows, dateCol, parse, cs);
    var es := DatedAmounts(rows, dateCol, parse, c.offset);
    LabelPivotCells(rows, dateCol, parse, cs);
    forall i | 0 <= i < |p.cells| ensures p.cells[i][j] == SumFor(es, p.dates[i]) {
      DatedAmountsSum(rows, dateCol, parse, c.offset, p.dates[i]);
    }
    ColumnTotalSumOver(p.cells, j, p.dates, es);
  }

  /** The pivot's days are distinct and include the day of every pair. */
  lemma LabelPivotDaysCover(rows: seq<Row>, dateCol: nat, parse: Parser, cs: seq<Column>, off: nat)
    requires |cs| > 0
    ensures var p := LabelPivot(rows, dateCol, parse, cs);
      var es := DatedAmounts(rows, dateCol, parse, off);
      Distinct(p.dates) && forall i :: 0 <= i < |es| ==> es[i].key in p.dates
  {
    var p := LabelPivot(rows, dateCol, parse, cs);
    var es := DatedAmounts(rows, dateCol, parse, off);
    LabelPivotDates(rows, dateCol, parse, cs);
    DateLtIsStrictTotal();
    SortedIsDistinct(p.dates, DateLt);
    DatedAmountsKeys(rows, dateCol, parse, off);
    assert forall i :: 0 <= i < |es| ==> Keys(es)[i] == es[i].key;
  }

  /** A pivot column adds up to the label's plain sum over the rows:
      spreading the amounts over days loses and duplicates nothing. */
  lemma LabelPivotColumnTotal(rows: seq<Row>, dateCol: nat, parse: Parser, cs: seq<Column>, j: nat, c: Column)
    requires Distinct(Labels(cs))
    requires forall i :: 0 <= i < |rows| ==> DateAt(rows[i], dateCol, parse).Some?
    requires j < |LabelPivot(rows, dateCol, parse, cs).labels|
    requires c in cs && c.name == LabelPivot(rows, dateCol, parse, cs).labels[j]
    ensures ColumnTotal(LabelPivot(rows, dateCol, parse, cs).cells, j) == ColumnSum(rows, c.offset)
  {
    var p := LabelPivot(rows, dateCol, parse, cs);
    var es := DatedAmounts(rows, dateCol, parse, c.offset);
    LabelPivotColumnSumOver(rows, dateCol, parse, cs, j, c);
    LabelPivotDaysCover(rows, dateCol, parse, cs, c.offset);
    SumOverCovering(p.dates, es);
    DatedAmountsTotal(rows, dateCol, parse, c.offset);
  }

  /** Every kept row of a sheet has a day. */
  lemma FilteredRowsDated(s: Sheet, parse: Parser, start: Date, end: Date)
    ensures var rows := FilteredRows(s, parse, start, end);
      forall i :: 0 <= i < |rows| ==> DateAt(rows[i], DateOffset(TypeOf(s.name)), parse).Some?
  {
    var rows := FilteredRows(s, parse, start, end);
    assert forall i :: 0 <= i < |rows| ==> rows[i] in rows;
  }

  /** A label of the type's table that is extracted names the extracted
      column with its offset. */
  lemma ExtractedColumn(s: Sheet, k: nat)
    requires k < |Columns(TypeOf(s.name))|
    requires Columns(TypeOf(s.name))[k].name in Labels(SheetLabels(s))
    ensures Columns(TypeOf(s.name))[k] in SheetLabels(s)
  {
    LabelsDistinct(TypeOf(s.name));
    ExtractedByName(Columns(TypeOf(s.name)), s.width, k);
  }

  /** With distinct labels, a label that survives extraction brings its own
      column along. */
  lemma ExtractedByName(cs: seq<Column>, width: nat, k: nat)
    requires Distinct(Labels(cs)) && k < |cs|
    requires cs[k].name in Labels(Extractable(cs, width))
    ensures cs[k] in Extractable(cs, width)
  {
    var r := Extractable(cs, width);
    var m :| 0 <= m < |r| && Labels(r)[m] == cs[k].name;
    assert r[m] in cs;
    var k' :| 0 <= k' < |cs| && cs[k'] == r[m];
    assert Labels(cs)[k] == Labels(cs)[k'];
  }

  lemma SheetColumnTotal(s: Sheet, parse: Parser, start: Date, end: Date, j: nat, c: Column)
    requires Processable(s) && AmountsNumeric(s, parse, start, end)
    requires SheetPivot(s, parse, start, end).Some?
    requires j < |SheetPivot(s, parse, start, end).value.labels|
    requires c in SheetLabels(s) && c.name == SheetPivot(s, parse, start, end).value.labels[j]
    ensures ColumnTotal(SheetPivot(s, parse, start, end).value.cells, j)
      == ColumnSum(FilteredRows(s, parse, start, end), c.offset)
  {
    var t := TypeOf(s.name);
    FilteredRowsDated(s, parse, start, end);
    LabelsDistinct(t);
    ExtractableDistinct(Columns(t), s.width);
    LabelPivotColumnTotal(FilteredRows(s, parse, start, end), DateOffset(t), parse, SheetLabels(s), j, c);
  }

  /** Each column of a sheet's pivot adds up to its label's plain sum over
      the kept rows. */
  lemma SheetPivotColumnTotal(s: Sheet, parse: Parser, start: Date, end: Date)
    requires Processable(s) && AmountsNumeric(s, parse, start, end)
    ensures SheetPivot(s, parse, start, end).Some? ==>
      var p := SheetPivot(s, parse, start, end).value;
      forall j, c :: 0 <= j < |p.labels| && c in SheetLabels(s) && c.name == p.labels[j] ==>
        ColumnTotal(p.cells, j) == ColumnSum(FilteredRows(s, parse, start, end), c.offset)
  {
    if SheetPivot(s, parse, start, end).Some? {
      var p := SheetPivot(s, parse, start, end).value;
      forall j, c | 0 <= j < |p.labels| && c in SheetLabels(s) && c.name == p.labels[j]
        ensures ColumnTotal(p.cells, j) == ColumnSum(FilteredRows(s, parse, start, end), c.offset)
      {
        SheetColumnTotal(s, parse, start, end, j, c);
      }
    }
  }

  /** An extracted label's amounts on the kept rows are all numeric. */
  lemma ExtractedNumeric(s: Sheet, parse: Parser, start: Date, end: Date, c: Column)
    requires AmountsNumeric(s, parse, start, end) && c in SheetLabels(s)
    ensures !HasNonNumeric(FilteredRows(s, parse, start, end), c.offset)
  {
    var m :| 0 <= m < |SheetLabels(s)| && SheetLabels(s)[m] == c;
    assert ColumnNumeric(FilteredRows(s, parse, start, end), SheetLabels(s)[m].offset);
  }

  lemma LabelAgrees(s: Sheet, parse: Parser, start: Date, end: Date, j: nat, k: nat)
    requires Processable(s) && AmountsNumeric(s, parse, start, end)
    requires SheetPivot(s, parse, start, end).Some?
    requires j < |SheetPivot(s, parse, start, end).value.labels|
    requires k < |Columns(TypeOf(s.name))|
    requires Columns(TypeOf(s.name))[k].name == SheetPivot(s, parse, start, end).value.labels[j]
    ensures SheetTotals(s, parse, start, end)[k].total
      == Amount(ColumnTotal(SheetPivot(s, parse, start, end).value.cells, j))
  {
    var c := Columns(TypeOf(s.name))[k];
    SheetPivotLabels(s, parse, start, end);
    ExtractedColumn(s, k);
    SheetColumnTotal(s, parse, start, end, j, c);
    ExtractedNumeric(s, parse, start, end, c);
  }

  /** The dashboard and the totals app agree: the column of a label in a
      sheet's daily pivot adds up to the amount the totals app reports for
      that label. */
  lemma PivotAgreesWithTotals(s: Sheet, parse: Parser, start: Date, end: Date)
    requires Processable(s) && AmountsNumeric(s, parse, start, end)
    ensures SheetPivot(s, parse, start, end).Some? ==>
      var p := SheetPivot(s, parse, start, end).value;
      var cs := Columns(TypeOf(s.name));
      forall j, k :: 0 <= j < |p.labels| && 0 <= k < |cs| && cs[k].name == p.labels[j] ==>
        SheetTotals(s, parse, start, end)[k].total == Amount(ColumnTotal(p.cells, j))
  {
    if SheetPivot(s, parse, start, end).Some? {
      var p := SheetPivot(s, parse, start, end).value;
      var cs := Columns(TypeOf(s.name));
      forall j, k | 0 <= j < |p.labels| && 0 <= k < |cs| && cs[k].name == p.labels[j]
        ensures SheetTotals(s, parse, start, end)[k].total == Amount(ColumnTotal(p.cells, j))
      {
        LabelAgrees(s, parse, start, end, j, k);
      }
    }
  }

  /** The zero-padded `%Y/%m/%d` row keys are in ascending string order, so
      pandas' sort of the keys lists the days chronologically. */
  function RowKeys(p: Pivot): (ks: seq<string>)
    requires Sorted(p.dates, DateLt)
    ensures |ks| == |p.dates|
    ensures Sorted(ks, StrLt)
    ensures forall i :: 0 <= i < |ks| ==> ks[i] == Slashed(p.dates[i])
  {
    var ks := seq(|p.dates|, i requires 0 <= i < |p.dates| => Slashed(p.dates[i]));
    assert Sorted(ks, StrLt) by {
      forall i, j | 0 <= i < j < |ks| ensures StrLt(ks[i], ks[j]) {
        SlashedOrder(p.dates[i], p.dates[j]);
      }
    }
    ks
  }

  /** A sheet the dashboard can process: if it is selected, it is wide
      enough for its date column and its extracted amounts are numbers. */
  predicate Ready(s: Sheet, parse: Parser, start: Date, end: Date) {
    IsTarget(s.name) ==> Processable(s) && AmountsNumeric(s, parse, start, end)
  }

  /** What one sheet adds to `cost_results`: its type and pivot when it is
      selected and has a pivot, nothing otherwise. */
  function Contribution(s: Sheet, parse: Parser, start: Date, end: Date): (r: Option<(SheetType, Pivot)>)
    requires Ready(s, parse, start, end)
    ensures r.Some? <==> IsTarget(s.name) && SheetPivot(s, parse, start, end).Some?
    ensures r.Some? ==> r.value.0 == TypeOf(s.name) && Some(r.value.1) == SheetPivot(s, parse, start, end)
  {
    if IsTarget(s.name) then
      match SheetPivot(s, parse, start, end)
      case Some(p) => Some((TypeOf(s.name), p))
      case None => None
    else None
  }

  /** Each sheet's contribution, position by position. */
  function Contributions(book: seq<Sheet>, parse: Parser, start: Date, end: Date): (r: seq<Option<(SheetType, Pivot)>>)
    requires forall s :: s in book ==> Ready(s, parse, start, end)
    ensures |r| == |book|
    ensures forall i :: 0 <= i < |book| ==> r[i] == Contribution(book[i], parse, start, end)
  {
    seq(|book|, i requires 0 <= i < |book| && book[i] in book => Contribution(book[i], parse, start, end))
  }

  /** `cost_results`: the contributions of the workbook's sheets, in
      workbook order. */
  function CostResults(book: seq<Sheet>, parse: Parser, start: Date, end: Date): (r: seq<(SheetType, Pivot)>)
    requires forall s :: s in book ==> Ready(s, parse, start, end)
    ensures |r| <= |book|
    ensures forall e :: (e in r <==> exists s :: s in book && Contribution(s, parse, start, end) == Some(e))
  {
    var cs := Contributions(book, parse, start, end);
    assert forall e :: Some(e) in cs <==> exists s :: s in book && Contribution(s, parse, start, end) == Some(e) by {
      forall e ensures Some(e) in cs ==> exists s :: s in book && Contribution(s, parse, start, end) == Some(e) {
        if Some(e) in cs {
          var i :| 0 <= i < |cs| && cs[i] == Some(e);
          assert book[i] in book;
        }
      }
      forall e ensures (exists s :: s in book && Contribution(s, parse, start, end) == Some(e)) ==> Some(e) in cs {
        if exists s :: s in book && Contribution(s, parse, start, end) == Some(e) {
          var s :| s in book && Contribution(s, parse, start, end) == Some(e);
          var i :| 0 <= i < |book| && book[i] == s;
          assert cs[i] == Some(e);
        }
      }
    }
    Present(cs)
  }

  /** Contributions split over a split workbook: one entry per contributing
      sheet, in workbook order, so a later sheet's pivot comes after an
      earlier one's. */
  lemma CostResultsAppend(a: seq<Sheet>, b: seq<Sheet>, parse: Parser, start: Date, end: Date)
    requires forall s :: s in a + b ==> Ready(s, parse, start, end)
    ensures CostResults(a + b, parse, start, end) == CostResults(a, parse, start, end) + CostResults(b, parse, start, end)
  {
    assert forall s :: s in a ==> s in a + b;
    assert forall s :: s in b ==> s in a + b;
    var ca := Contributions(a, parse, start, end);
    var cb := Contributions(b, parse, start, end);
    var cab := Contributions(a + b, parse, start, end);
    forall i | 0 <= i < |cab| ensures cab[i] == (ca + cb)[i] {
      if i < |a| {
        assert (a + b)[i] == a[i];
      } else {
        assert (a + b)[i] == b[i - |a|];
      }
    }
    assert cab == ca + cb;
    PresentAppend(ca, cb);
  }

  /** A single sheet adds its contribution, if any, and nothing else. */
  lemma CostResultsSingle(s: Sheet, parse: Parser, start: Date, end: Date)
    requires Ready(s, parse, start, end)
    ensures CostResults([s], parse, start, end)
      == (if Contribution(s, parse, start, end).Some? then [Contribution(s, parse, start, end).value] else [])
  {
  }
}

=== FILE: dates.dfy ===
/** Calendar days as the scripts see them after `pd.to_datetime`: a whole
    day, compared chronologically, and rendered with `strftime` either as
    `%Y/%m/%d` (the daily pivot's row keys) or `%Y%m%d` (export file names). */
module Dates {
  import opened Wrappers
  import opened Order
  import opened Strings

  datatype YMD = YMD(year: int, month: int, day: int)

  predicate IsLeapYear(y: int) {
    y % 4 == 0 && (y % 100 != 0 || y % 400 == 0)
  }

  function DaysInMonth(y: int, m: int): int {
    if m == 2 then (if IsLeapYear(y) then 29 else 28)
    else if m == 4 || m == 6 || m == 9 || m == 11 then 30
    else 31
  }

  /** A real Gregorian day with a four-digit year. Every timestamp pandas can
      hold lies in 1677..2262, so no parsed date falls outside. */
  predicate ValidDate(d: YMD) {
    && 1000 <= d.year <= 9999
    && 1 <= d.month <= 12
    && 1 <= d.day <= DaysInMonth(d.year, d.month)
  }

  type Date = d: YMD | ValidDate(d) witness YMD(2000, 1, 1)

  /** Chronological order: `a` is an earlier day than `b`. */
  predicate DateLt(a: Date, b: Date) {
    || a.year < b.year
    || (a.year == b.year && a.month < b.month)
    || (a.year == b.year && a.month == b.month && a.day < b.day)
  }

  /** `a` is the same day as `b` or earlier (pandas' `a <= b` on timestamps). */
  predicate DateLe(a: Date, b: Date) {
    !DateLt(b, a)
  }

  lemma DateLtIsStrictTotal()
    ensures StrictTotalOrder(DateLt)
  {
  }

  /** `strftime("%Y/%m/%d")`: the row key of the daily pivot table. */
  function Slashed(d: Date): (s: string)
    ensures |s| == 10 && s[4] == '/' && s[7] == '/'
    ensures AllDigits(s[..4]) && AllDigits(s[5..7]) && AllDigits(s[8..])
  {
    Digits(d.year, 4) + ("/" + (Digits(d.month, 2) + ("/" + Digits(d.day, 2))))
  }

  /** Zero padding makes string order on pivot row keys agree with
      chronological order, and distinct days get distinct keys. */
  lemma SlashedOrder(a: Date, b: Date)
    ensures StrLt(Slashed(a), Slashed(b)) <==> DateLt(a, b)
    ensures Slashed(a) == Slashed(b) <==> a == b
  {
    var ya, yb := Digits(a.year, 4), Digits(b.year, 4);
    var ma, mb := Digits(a.month, 2), Digits(b.month, 2);
    var da, db := Digits(a.day, 2), Digits(b.day, 2);
    StrLtIrreflexive("/");
    DigitsOrder(a.year, b.year, 4);
    DigitsOrder(a.month, b.month, 2);
    DigitsOrder(a.day, b.day, 2);
    DigitsInjective(a.year, b.year, 4);
    DigitsInjective(a.month, b.month, 2);
    DigitsInjective(a.day, b.day, 2);
    StrLtConcat("/", da, "/", db);
    StrLtConcat(ma, "/" + da, mb, "/" + db);
    StrLtConcat("/", ma + ("/" + da), "/", mb + ("/" + db));
    StrLtConcat(ya, "/" + (ma + ("/" + da)), yb, "/" + (mb + ("/" + db)));
    if Slashed(a) == Slashed(b) {
      assert Slashed(a)[..4] == ya && Slashed(b)[..4] == yb;
      assert Slashed(a)[5..7] == ma && Slashed(b)[5..7] == mb;
      assert Slashed(a)[8..] == da && Slashed(b)[8..] == db;
    }
  }

  /** `strftime("%Y%m%d")`: the date field of an export file name. */
  function Compact(d: Date): (s: string)
    ensures |s| == 8 && AllDigits(s)
  {
    Digits(d.year, 4) + Digits(d.month, 2) + Digits(d.day, 2)
  }

  /** Reads a `%Y%m%d` field back; `None` unless it names a valid day. */
  function ParseCompact(s: string): (r: Option<Date>)
    ensures r.Some? ==> |s| == 8 && AllDigits(s)
  {
    if |s| == 8 && AllDigits(s) then
      assert AllDigits(s[..4]) && AllDigits(s[4..6]) && AllDigits(s[6..]);
      var d := YMD(DigitsValue(s[..4]), DigitsValue(s[4..6]), DigitsValue(s[6..]));
      if ValidDate(d) then Some(d) else None
    else None
  }

  lemma CompactRoundTrip(d: Date)
    ensures ParseCompact(Compact(d)) == Some(d)
  {
    var s := Compact(d);
    assert s[..4] == Digits(d.year, 4);
    assert s[4..6] == Digits(d.month, 2);
    assert s[6..] == Digits(d.day, 2);
    DigitsRoundTrip(d.year, 4);
    DigitsRoundTrip(d.month, 2);
    DigitsRoundTrip(d.day, 2);
  }
}

=== FILE: export.dfy ===
/** Names used when the report is written out: worksheet names (cut to the
    31-character limit of the workbook format) and download file names that
    embed the chosen range as `%Y%m%d`. */
module Export {
  import opened Wrappers
  import opened Strings
  import opened Dates
  import opened CostSheets

  /** The longest worksheet name a workbook accepts. */
  const SheetNameLimit: nat := 31

  /** `sheet_name[:31]`: the worksheet name a result is exported under. */
  function ExportSheetName(name: string): (r: string)
    ensures |r| <= SheetNameLimit
    ensures StartsWith(name, r)
    ensures |name| <= SheetNameLimit <==> r == name
    ensures |name| > SheetNameLimit ==> |r| == SheetNameLimit
  {
    Truncate(name, SheetNameLimit)
  }

  /** `prefix + start + sep + end + ".xlsx"` with both dates as `%Y%m%d`. */
  function FileName(prefix: string, sep: string, start: Date, end: Date): (f: string)
    ensures |f| == |prefix| + |sep| + 21
    ensures StartsWith(f, prefix)
    ensures AllDigits(f[|prefix|..|prefix| + 8])
    ensures f[|prefix| + 8..|prefix| + 8 + |sep|] == sep
    ensures AllDigits(f[|prefix| + 8 + |sep|..|prefix| + 16 + |sep|])
    ensures f[|prefix| + 16 + |sep|..] == ".xlsx"
  {
    var f := prefix + Compact(start) + sep + Compact(end) + ".xlsx";
    assert f[..|prefix|] == prefix;
    assert f[|prefix|..|prefix| + 8] == Compact(start);
    assert f[|prefix| + 8..|prefix| + 8 + |sep|] == sep;
    assert f[|prefix| + 8 + |sep|..|prefix| + 16 + |sep|] == Compact(end);
    assert f[|prefix| + 16 + |sep|..] == ".xlsx";
    f
  }

  /** Recovers the range from a file name of the shape `FileName` writes. */
  function ParseFileName(prefix: string, sep: string, f: string): Option<(Date, Date)> {
    var p := |prefix|;
    var q := |sep|;
    if |f| != p + q + 21 || f[..p] != prefix || f[p + 8..p + 8 + q] != sep || f[p + 16 + q..] != ".xlsx" then None
    else
      match (ParseCompact(f[p..p + 8]), ParseCompact(f[p + 8 + q..p + 16 + q]))
      case (Some(s), Some(e)) => Some((s, e))
      case _ => None
  }

  /** The range written into a file name can be read back unchanged. */
  lemma FileNameRoundTrip(prefix: string, sep: string, start: Date, end: Date)
    ensures ParseFileName(prefix, sep, FileName(prefix, sep, start, end)) == Some((start, end))
  {
    var f := FileName(prefix, sep, start, end);
    var p := |prefix|;
    var q := |sep|;
    assert f == prefix + Compact(start) + sep + Compact(end) + ".xlsx";
    assert f[p..p + 8] == Compact(start);
    assert f[p + 8 + q..p + 16 + q] == Compact(end);
    CompactRoundTrip(start);
    CompactRoundTrip(end);
  }

  /** The cost-totals download: `配信費集計_<start>〜<end>.xlsx`. */
  function CostFileName(start: Date, end: Date): (f: string)
    ensures ParseFileName("配信費集計_", "〜", f) == Some((start, end))
    ensures |f| == 28
  {
    FileNameRoundTrip("配信費集計_", "〜", start, end);
    FileName("配信費集計_", "〜", start, end)
  }

  /** The combined CV and cost download: `申込件数配信費集計_<start>_<end>.xlsx`. */
  function ReportFileName(start: Date, end: Date): (f: string)
    ensures ParseFileName("申込件数配信費集計_", "_", f) == Some((start, end))
    ensures |f| == 32
  {
    FileNameRoundTrip("申込件数配信費集計_", "_", start, end);
    FileName("申込件数配信費集計_", "_", start, end)
  }

  /** The type name the combined download uses for a cost sheet. */
  function TypeName(t: SheetType): string {
    match t
    case Listing => "Listing"
    case Display => "Display"
    case Affiliate => "Affiliate"
  }

  /** A cost pivot's worksheet in the combined download: `<type>_集計`. The
      name depends on the type alone, so two sheets of one type are written
      to the same worksheet. */
  function PivotSheetName(t: SheetType): (r: string)
    ensures |r| <= SheetNameLimit
    ensures ExportSheetName(r) == r
  {
    TypeName(t) + "_集計"
  }

  /** Different types get different worksheets; sheets of one type share. */
  lemma PivotSheetNameInjective(t: SheetType, u: SheetType)
    ensures PivotSheetName(t) == PivotSheetName(u) <==> t == u
  {
    if t != u {
      assert |TypeName(t)| != |TypeName(u)| || TypeName(t)[0] != TypeName(u)[0];
      assert PivotSheetName(t)[0] == TypeName(t)[0] && PivotSheetName(u)[0] == TypeName(u)[0];
    }
  }
}

=== FILE: grouping.dfy ===
/** Group-by-and-sum, the aggregation behind
    `df.groupby(keys, as_index=False)[value].sum()`: one output entry per
    distinct key, keys in ascending order, each amount the sum of the input
    amounts carrying that key. */
module Grouping {
  import opened Wrappers
  import opened Order

  /** One input or output row of a group-by: a key and an amount. */
  datatype Entry<K> = Entry(key: K, amount: int)

  function Keys<K>(es: seq<Entry<K>>): (ks: seq<K>)
    ensures |ks| == |es|
    ensures forall i :: 0 <= i < |es| ==> ks[i] == es[i].key
  {
    if |es| == 0 then [] else [es[0].key] + Keys(es[1..])
  }

  /** Reference definition: the sum of the amounts carrying key `k`. */
  function SumFor<K(==)>(es: seq<Entry<K>>, k: K): int {
    if |es| == 0 then 0
    else (if es[0].key == k then es[0].amount else 0) + SumFor(es[1..], k)
  }

  lemma {:induction false} SumForAppend<K>(a: seq<Entry<K>>, b: seq<Entry<K>>, k: K)
    ensures SumFor(a + b, k) == SumFor(a, k) + SumFor(b, k)
  {
    if |a| > 0 {
      assert (a + b)[1..] == a[1..] + b;
      SumForAppend(a[1..], b, k);
    } else {
      assert a + b == b;
    }
  }

  lemma KeysAppend<K>(a: seq<Entry<K>>, b: seq<Entry<K>>)
    ensures Keys(a + b) == Keys(a) + Keys(b)
  {
  }

  /** The sum of all amounts. */
  function Total<K>(es: seq<Entry<K>>): int {
    if |es| == 0 then 0 else es[0].amount + Total(es[1..])
  }

  predicate Distinct<K(==)>(ks: seq<K>) {
    forall i, j :: 0 <= i < j < |ks| ==> ks[i] != ks[j]
  }

  lemma SortedIsDistinct<K(!new)>(ks: seq<K>, lt: (K, K) -> bool)
    requires StrictTotalOrder(lt) && Sorted(ks, lt)
    ensures Distinct(ks)
  {
    forall i, j | 0 <= i < j < |ks| ensures ks[i] != ks[j] {
      assert lt(ks[i], ks[j]);
    }
  }

  /** Adds every amount into a running per-key dictionary, the way the
      grouped sums are accumulated. */
  function Accumulate<K(==)>(es: seq<Entry<K>>, m: map<K, int>): map<K, int> {
    if |es| == 0 then m
    else
      var k := es[0].key;
      Accumulate(es[1..], m[k := (if k in m then m[k] else 0) + es[0].amount])
  }

  lemma {:induction false} AccumulateSums<K(!new)>(es: seq<Entry<K>>, m: map<K, int>)
    ensures forall k :: k in Accumulate(es, m) <==> k in m || k in Keys(es)
    ensures forall k :: k in Accumulate(es, m) ==>
      Accumulate(es, m)[k] == (if k in m then m[k] else 0) + SumFor(es, k)
  {
    if |es| > 0 {
      var k0 := es[0].key;
      var m' := m[k0 := (if k0 in m then m[k0] else 0) + es[0].amount];
      AccumulateSums(es[1..], m');
      assert Keys(es) == [k0] + Keys(es[1..]);
    }
  }

  /** The per-key sums as a dictionary: defined exactly on the keys that
      occur, each value the reference sum for its key. */
  function GroupSum<K(!new)>(es: seq<Entry<K>>): (m: map<K, int>)
    ensures forall k :: k in m <==> k in Keys(es)
    ensures forall k :: k in m ==> m[k] == SumFor(es, k)
  {
    AccumulateSums(es, map[]);
    Accumulate(es, map[])
  }

  /** `groupby(...).sum()`: one entry per distinct key, in ascending key
      order, carrying that key's total. */
  function Grouped<K(==,!new)>(es: seq<Entry<K>>, lt: (K, K) -> bool): (g: seq<Entry<K>>)
    requires StrictTotalOrder(lt)
    ensures Sorted(Keys(g), lt)
    ensures forall k :: k in Keys(g) <==> k in Keys(es)
    ensures forall i :: 0 <= i < |g| ==> g[i].amount == SumFor(es, g[i].key)
  {
    var m := GroupSum(es);
    var ks := SortUnique(Keys(es), lt);
    var g := seq(|ks|, i requires 0 <= i < |ks| => Entry(ks[i], m[ks[i]]));
    assert Keys(g) == ks;
    g
  }

  /** The amount of the first entry with key `k` (a pivot cell's lookup). */
  function Lookup<K(==)>(es: seq<Entry<K>>, k: K): (r: Option<int>)
    ensures r.None? <==> k !in Keys(es)
  {
    if |es| == 0 then None
    else if es[0].key == k then Some(es[0].amount)
    else
      assert Keys(es) == [es[0].key] + Keys(es[1..]);
      Lookup(es[1..], k)
  }

  /** With distinct keys, a key's sum is the amount of its single entry. */
  lemma {:induction false} SumForDistinct<K>(es: seq<Entry<K>>, k: K)
    requires Distinct(Keys(es))
    ensures Lookup(es, k).Some? ==> SumFor(es, k) == Lookup(es, k).value
    ensures Lookup(es, k).None? ==> SumFor(es, k) == 0
  {
    if |es| > 0 {
      assert Keys(es) == [es[0].key] + Keys(es[1..]);
      assert Distinct(Keys(es[1..]));
      SumForDistinct(es[1..], k);
      if es[0].key == k {
        assert k !in Keys(es[1..]);
      }
    }
  }

  /** Summing the grouped table again by key gives the original sums: rows
      sharing a key are combined once and nothing is lost or double counted. */
  lemma GroupedSums<K(!new)>(es: seq<Entry<K>>, lt: (K, K) -> bool, k: K)
    requires StrictTotalOrder(lt)
    ensures SumFor(Grouped(es, lt), k) == SumFor(es, k)
    ensures Lookup(Grouped(es, lt), k).ValueOr(0) == SumFor(es, k)
  {
    var g := Grouped(es, lt);
    SortedIsDistinct(Keys(g), lt);
    SumForDistinct(g, k);
    if k in Keys(g) {
      LookupFinds(g, k);
    } else {
      assert k !in Keys(es);
      SumForAbsent(es, k);
    }
  }

  lemma {:induction false} LookupFinds<K>(es: seq<Entry<K>>, k: K)
    requires k in Keys(es)
    ensures exists i :: 0 <= i < |es| && es[i].key == k && Lookup(es, k) == Some(es[i].amount)
  {
    assert Keys(es) == [es[0].key] + Keys(es[1..]);
    if es[0].key != k {
      LookupFinds(es[1..], k);
      var i :| 0 <= i < |es[1..]| && es[1..][i].key == k && Lookup(es[1..], k) == Some(es[1..][i].amount);
      assert es[i + 1] == es[1..][i];
    }
  }

  lemma {:induction false} SumForAbsent<K>(es: seq<Entry<K>>, k: K)
    requires k !in Keys(es)
    ensures SumFor(es, k) == 0
  {
    if |es| > 0 {
      assert Keys(es) == [es[0].key] + Keys(es[1..]);
      SumForAbsent(es[1..], k);
    }
  }

  /** Grouping an already grouped table changes nothing. */
  lemma GroupedIdempotent<K(!new)>(es: seq<Entry<K>>, lt: (K, K) -> bool)
    requires StrictTotalOrder(lt)
    ensures Grouped(Grouped(es, lt), lt) == Grouped(es, lt)
  {
    var g := Grouped(es, lt);
    var g2 := Grouped(g, lt);
    SortUniqueOfSorted(Keys(g), lt);
    SortedUnique(Keys(g2), Keys(g), lt);
    assert |g2| == |g|;
    forall i | 0 <= i < |g| ensures g2[i] == g[i] {
      GroupedSums(es, lt, g[i].key);
      assert g2[i].key == g[i].key;
    }
  }

  /** `SumOver(ks, es)`: the sum, over the keys `ks`, of each key's total. */
  function SumOver<K(==)>(ks: seq<K>, es: seq<Entry<K>>): int {
    if |ks| == 0 then 0 else SumFor(es, ks[0]) + SumOver(ks[1..], es)
  }

  /** The sum of the amounts whose key is one of `ks`. */
  function TotalIn<K(==)>(es: seq<Entry<K>>, ks: seq<K>): int {
    if |es| == 0 then 0
    else (if es[0].key in ks then es[0].amount else 0) + TotalIn(es[1..], ks)
  }

  lemma {:induction false} SumOverStep<K>(ks: seq<K>, es: seq<Entry<K>>)
    requires |es| > 0 && Distinct(ks)
    ensures SumOver(ks, es) == (if es[0].key in ks then es[0].amount else 0) + SumOver(ks, es[1..])
  {
    if |ks| > 0 {
      assert Distinct(ks[1..]);
      SumOverStep(ks[1..], es);
      if ks[0] == es[0].key {
        assert es[0].key !in ks[1..];
      }
      assert es[0].key in ks <==> es[0].key == ks[0] || es[0].key in ks[1..];
    }
  }

  lemma {:induction false} SumOverNone<K>(ks: seq<K>, es: seq<Entry<K>>)
    requires |es| == 0
    ensures SumOver(ks, es) == 0
  {
    if |ks| > 0 {
      SumOverNone(ks[1..], es);
    }
  }

  /** Adding up per-key totals over distinct keys adds each amount whose
      key is listed exactly once. */
  lemma {:induction false} SumOverDistinct<K>(ks: seq<K>, es: seq<Entry<K>>)
    requires Distinct(ks)
    ensures SumOver(ks, es) == TotalIn(es, ks)
  {
    if |es| == 0 {
      SumOverNone(ks, es);
    } else {
      SumOverStep(ks, es);
      SumOverDistinct(ks, es[1..]);
    }
  }

  lemma {:induction false} TotalInAll<K>(es: seq<Entry<K>>, ks: seq<K>)
    requires forall i :: 0 <= i < |es| ==> es[i].key in ks
    ensures TotalIn(es, ks) == Total(es)
  {
    if |es| > 0 {
      TotalInAll(es[1..], ks);
    }
  }

  /** Summing per-key totals over distinct keys that cover every entry
      gives the grand total. */
  lemma SumOverCovering<K>(ks: seq<K>, es: seq<Entry<K>>)
    requires Distinct(ks)
    requires forall i :: 0 <= i < |es| ==> es[i].key in ks
    ensures SumOver(ks, es) == Total(es)
  {
    SumOverDistinct(ks, es);
    TotalInAll(es, ks);
  }

  lemma {:induction false} TotalAsSumOver<K>(g: seq<Entry<K>>, es: seq<Entry<K>>)
    requires forall i :: 0 <= i < |g| ==> g[i].amount == SumFor(es, g[i].key)
    ensures Total(g) == SumOver(Keys(g), es)
  {
    if |g| > 0 {
      assert Keys(g)[1..] == Keys(g[1..]);
      TotalAsSumOver(g[1..], es);
    }
  }

  /** The grand total survives grouping. */
  lemma GroupedTotal<K(!new)>(es: seq<Entry<K>>, lt: (K, K) -> bool)
    requires StrictTotalOrder(lt)
    ensures Total(Grouped(es, lt)) == Total(es)
  {
    var g := Grouped(es, lt);
    TotalAsSumOver(g, es);
    SortedIsDistinct(Keys(g), lt);
    SumOverDistinct(Keys(g), es);
    assert forall i :: 0 <= i < |es| ==> es[i].key in Keys(g) by {
      assert forall i :: 0 <= i < |es| ==> es[i].key in Keys(es);
    }
    TotalInAll(es, Keys(g));
  }
}

=== FILE: label_totals.dfy ===
/** The cost-totals app: for every selected sheet, one total per label of its
    type's column table over the rows dated inside the chosen range, with an
    error marker in place of a total that cannot be computed. */
module LabelTotals {
  import opened Wrappers
  import opened Dates
  import opened Tables
  import opened CostSheets
  import opened Export

  /** What is shown for a label: the summed amount, or the "エラー" marker. */
  datatype Figure = Amount(value: int) | Failed

  datatype LabelTotal = LabelTotal(name: string, total: Figure)

  /** Some row holds, at `off`, a value that cannot be added as a number. */
  ghost predicate HasNonNumeric(rows: seq<Row>, off: nat) {
    exists i :: 0 <= i < |rows| && off < |rows[i]| && !Numeric(rows[i][off])
  }

  /** Adds up column `off` row by row, failing at the first text or date. */
  function SumOrFail(rows: seq<Row>, off: nat): (r: Figure)
    ensures r.Failed? <==> HasNonNumeric(rows, off)
    ensures r.Amount? ==> r.value == ColumnSum(rows, off)
  {
    if |rows| == 0 then Amount(0)
    else
      assert forall i :: 1 <= i < |rows| ==> rows[i] == rows[1..][i - 1];
      assert HasNonNumeric(rows[1..], off) ==> HasNonNumeric(rows, off) by {
        if HasNonNumeric(rows[1..], off) {
          var i :| 0 <= i < |rows[1..]| && off < |rows[1..][i]| && !Numeric(rows[1..][i][off]);
          assert rows[i + 1] == rows[1..][i];
        }
      }
      if off < |rows[0]| && !Numeric(rows[0][off]) then Failed
      else match SumOrFail(rows[1..], off)
        case Failed => Failed
        case Amount(v) => Amount((if off < |rows[0]| then Value(rows[0][off]) else 0) + v)
  }

  /** `filtered_df.iloc[:, off].sum()` inside the try: an offset past the
      last column, or a non-numeric value to add, gives the error marker. */
  function TotalOf(rows: seq<Row>, width: nat, off: nat): (r: Figure)
    ensures r.Failed? <==> off >= width || HasNonNumeric(rows, off)
    ensures r.Amount? ==> r.value == ColumnSum(rows, off)
  {
    if off >= width then Failed else SumOrFail(rows, off)
  }

  /** The result table of one sheet: exactly one entry per label of its
      type, in table order; each entry is the label's sum over the rows dated
      inside [start, end], or the marker when only that label fails. */
  function SheetTotals(s: Sheet, parse: Parser, start: Date, end: Date): (r: seq<LabelTotal>)
    requires Processable(s)
    ensures |r| == |Columns(TypeOf(s.name))|
    ensures forall i :: 0 <= i < |r| ==> r[i].name == Columns(TypeOf(s.name))[i].name
    ensures forall i :: 0 <= i < |r| ==>
      var off := Columns(TypeOf(s.name))[i].offset;
      var rows := FilteredRows(s, parse, start, end);
      && (r[i].total.Failed? <==> off >= s.width || HasNonNumeric(rows, off))
      && (r[i].total.Amount? ==> r[i].total.value == ColumnSum(rows, off))
  {
    var cs := Columns(TypeOf(s.name));
    var rows := FilteredRows(s, parse, start, end);
    seq(|cs|, i requires 0 <= i < |cs| => LabelTotal(cs[i].name, TotalOf(rows, s.width, cs[i].offset)))
  }

  /** With the start after the end no row is kept: every label whose column
      exists totals 0, and only labels past the last column fail. */
  lemma InvertedRangeTotals(s: Sheet, parse: Parser, start: Date, end: Date)
    requires Processable(s) && DateLt(end, start)
    ensures forall i :: 0 <= i < |SheetTotals(s, parse, start, end)| ==>
      SheetTotals(s, parse, start, end)[i].total
        == (if Columns(TypeOf(s.name))[i].offset < s.width then Amount(0) else Failed)
  {
    FilterInverted(s.rows, DateOffset(TypeOf(s.name)), parse, start, end);
    assert FilteredRows(s, parse, start, end) == [];
  }

  /** One sheet's results and the worksheet name they are exported under. */
  datatype SheetSummary = SheetSummary(sheet: string, exportName: string, totals: seq<LabelTotal>)

  /** A run of the app: either the "no target sheet" error, or the inverted
      range warning flag, the download file name and one summary per
      selected sheet. */
  datatype AppOutcome = NoTargetSheets | Summary(inverted: bool, fileName: string, sheets: seq<SheetSummary>)

  function Summarize(s: Sheet, parse: Parser, start: Date, end: Date): SheetSummary
    requires Processable(s)
  {
    SheetSummary(s.name, ExportSheetName(s.name), SheetTotals(s, parse, start, end))
  }

  function SummarizeAll(sheets: seq<Sheet>, parse: Parser, start: Date, end: Date): (r: seq<SheetSummary>)
    requires forall i :: 0 <= i < |sheets| ==> Processable(sheets[i])
    ensures |r| == |sheets|
    ensures forall i :: 0 <= i < |sheets| ==> r[i] == Summarize(sheets[i], parse, start, end)
  {
    if |sheets| == 0 then []
    else [Summarize(sheets[0], parse, start, end)] + SummarizeAll(sheets[1..], parse, start, end)
  }

  /** The whole app over an uploaded workbook. With no selected sheet only
      the error is shown; otherwise an inverted range only raises the warning
      and every selected sheet is still summarised. */
  function RunApp(book: seq<Sheet>, parse: Parser, start: Date, end: Date): (r: AppOutcome)
    requires forall i :: 0 <= i < |book| && IsTarget(book[i].name) ==> Processable(book[i])
    ensures r.NoTargetSheets? <==> forall i :: 0 <= i < |book| ==> !IsTarget(book[i].name)
    ensures r.Summary? ==> (r.inverted <==> DateLt(end, start))
    ensures r.Summary? ==> ParseFileName("配信費集計_", "〜", r.fileName) == Some((start, end))
    ensures r.Summary? ==> |r.sheets| == |TargetsOf(book)| > 0
    ensures r.Summary? ==> forall i :: 0 <= i < |r.sheets| ==>
      && r.sheets[i].sheet == TargetsOf(book)[i].name
      && r.sheets[i].exportName == ExportSheetName(TargetsOf(book)[i].name)
      && Processable(TargetsOf(book)[i])
      && r.sheets[i].totals == SheetTotals(TargetsOf(book)[i], parse, start, end)
  {
    var targets := TargetsOf(book);
    assert forall s :: s in targets ==> Processable(s);
    assert forall i :: 0 <= i < |book| && IsTarget(book[i].name) ==> book[i] in targets;
    if |targets| == 0 then NoTargetSheets
    else
      assert targets[0] in book;
      Summary(DateLt(end, start), CostFileName(start, end), SummarizeAll(targets, parse, start, end))
  }
}

=== FILE: order.dfy ===
/** Strict total orders and the "sorted, without duplicates" sequences that
    pandas produces whenever it groups or pivots: group keys and pivot axes
    come out in ascending key order, each key once. */
module Order {

  /** `lt` is irreflexive, transitive and connects any two distinct values. */
  ghost predicate StrictTotalOrder<T(!new)>(lt: (T, T) -> bool) {
    && (forall x :: !lt(x, x))
    && (forall x, y, z :: lt(x, y) && lt(y, z) ==> lt(x, z))
    && (forall x, y :: x == y || lt(x, y) || lt(y, x))
  }

  /** Strictly ascending under `lt`: ascending and free of duplicates. */
  predicate Sorted<T>(s: seq<T>, lt: (T, T) -> bool) {
    forall i, j :: 0 <= i < j < |s| ==> lt(s[i], s[j])
  }

  /** Lexicographic order on pairs, the order pandas uses for a two-column
      group key. */
  function Lex<A(==), B>(lt1: (A, A) -> bool, lt2: (B, B) -> bool): ((A, B), (A, B)) -> bool {
    (p: (A, B), q: (A, B)) => lt1(p.0, q.0) || (p.0 == q.0 && lt2(p.1, q.1))
  }

  lemma LexIsStrictTotal<A(!new), B(!new)>(lt1: (A, A) -> bool, lt2: (B, B) -> bool)
    requires StrictTotalOrder(lt1) && StrictTotalOrder(lt2)
    ensures StrictTotalOrder(Lex(lt1, lt2))
  {
    var lt := Lex(lt1, lt2);
    forall p: (A, B) ensures !lt(p, p) {
      assert !lt1(p.0, p.0) && !lt2(p.1, p.1);
    }
    forall p: (A, B), q: (A, B), r: (A, B) | lt(p, q) && lt(q, r) ensures lt(p, r) {
      assert lt1(p.0, q.0) || (p.0 == q.0 && lt2(p.1, q.1));
      assert lt1(q.0, r.0) || (q.0 == r.0 && lt2(q.1, r.1));
    }
    forall p: (A, B), q: (A, B) ensures p == q || lt(p, q) || lt(q, p) {
      assert p.0 == q.0 || lt1(p.0, q.0) || lt1(q.0, p.0);
      assert p.1 == q.1 || lt2(p.1, q.1) || lt2(q.1, p.1);
    }
  }

  /** The head of a strictly sorted sequence is below every later value. */
  lemma HeadIsLeast<T(!new)>(s: seq<T>, lt: (T, T) -> bool)
    requires StrictTotalOrder(lt) && Sorted(s, lt) && |s| > 0
    ensures forall y :: y in s[1..] <==> y in s && y != s[0]
    ensures forall y :: y in s ==> y == s[0] || lt(s[0], y)
  {
    forall y | y in s[1..] ensures y in s && y != s[0] {
      var i :| 0 <= i < |s[1..]| && s[1..][i] == y;
      assert lt(s[0], s[i + 1]);
    }
    forall y | y in s && y != s[0] ensures y in s[1..] && lt(s[0], y) {
      var i :| 0 <= i < |s| && s[i] == y;
      assert i != 0;
      assert s[1..][i - 1] == y;
    }
  }

  /** Adds `x` to a strictly sorted sequence, keeping it strictly sorted; a
      value already present is not added again. */
  function Insert<T(==,!new)>(s: seq<T>, x: T, lt: (T, T) -> bool): (r: seq<T>)
    requires StrictTotalOrder(lt) && Sorted(s, lt)
    ensures Sorted(r, lt)
    ensures forall y :: y in r <==> y in s || y == x
  {
    if |s| == 0 then [x]
    else if x == s[0] then s
    else if lt(x, s[0]) then
      assert forall k :: 0 <= k < |s| ==> lt(x, s[k]) by {
        forall k | 0 < k < |s| ensures lt(x, s[k]) {
          assert lt(s[0], s[k]);
        }
      }
      [x] + s
    else
      var rest := Insert(s[1..], x, lt);
      assert lt(s[0], x);
      assert forall y :: y in rest ==> lt(s[0], y) by {
        forall y | y in rest ensures lt(s[0], y) {
          if y != x {
            var k :| 0 <= k < |s[1..]| && s[1..][k] == y;
            assert s[k + 1] == y;
          }
        }
      }
      [s[0]] + rest
  }

  /** The distinct values of `xs` in ascending order. */
  function SortUnique<T(==,!new)>(xs: seq<T>, lt: (T, T) -> bool): (r: seq<T>)
    requires StrictTotalOrder(lt)
    ensures Sorted(r, lt)
    ensures forall y :: y in r <==> y in xs
  {
    if |xs| == 0 then []
    else
      var rest := SortUnique(xs[1..], lt);
      assert forall y :: y in xs <==> y == xs[0] || y in xs[1..];
      Insert(rest, xs[0], lt)
  }

  /** Sorting what is already strictly sorted changes nothing. */
  lemma {:induction false} SortUniqueOfSorted<T(!new)>(xs: seq<T>, lt: (T, T) -> bool)
    requires StrictTotalOrder(lt) && Sorted(xs, lt)
    ensures SortUnique(xs, lt) == xs
  {
    if |xs| > 0 {
      assert Sorted(xs[1..], lt);
      SortUniqueOfSorted(xs[1..], lt);
      if |xs| > 1 {
        assert lt(xs[0], xs[1]);
      }
      assert [xs[0]] + xs[1..] == xs;
    }
  }

  /** Two strictly sorted sequences with the same values are equal. */
  lemma {:induction false} SortedUnique<T(!new)>(a: seq<T>, b: seq<T>, lt: (T, T) -> bool)
    requires StrictTotalOrder(lt) && Sorted(a, lt) && Sorted(b, lt)
    requires forall y :: y in a <==> y in b
    ensures a == b
  {
    if |b| > 0 {
      assert b[0] in a;
    }
    if |a| > 0 {
      assert a[0] in b;
      HeadIsLeast(a, lt);
      HeadIsLeast(b, lt);
      assert b[0] in a;
      assert a[0] == b[0];
      assert Sorted(a[1..], lt) && Sorted(b[1..], lt);
      SortedUnique(a[1..], b[1..], lt);
      assert a == [a[0]] + a[1..] && b == [b[0]] + b[1..];
    }
  }
}

=== FILE: strings.dfy ===
/** Text operations the scripts rely on: Python's string comparison (used
    whenever pandas sorts labels or date keys), the substring test `k in s`,
    slicing to a maximum length, and fixed-width decimal fields as written
    by `strftime`. */
module Strings {
  import opened Order

  /** Python's `a < b` on `str`: code point by code point, a proper prefix
      being smaller. */
  predicate StrLt(a: string, b: string)
    decreases |a|
  {
    if |a| == 0 then |b| > 0
    else if |b| == 0 then false
    else if a[0] != b[0] then a[0] < b[0]
    else StrLt(a[1..], b[1..])
  }

  lemma {:induction false} StrLtIrreflexive(a: string)
    ensures !StrLt(a, a)
    decreases |a|
  {
    if |a| > 0 {
      StrLtIrreflexive(a[1..]);
    }
  }

  lemma {:induction false} StrLtTransitive(a: string, b: string, c: string)
    requires StrLt(a, b) && StrLt(b, c)
    ensures StrLt(a, c)
    decreases |a|
  {
    if |a| > 0 && |b| > 0 && |c| > 0 && a[0] == b[0] && b[0] == c[0] {
      StrLtTransitive(a[1..], b[1..], c[1..]);
    }
  }

  lemma {:induction false} StrLtTotal(a: string, b: string)
    ensures a == b || StrLt(a, b) || StrLt(b, a)
    decreases |a|
  {
    if |a| > 0 && |b| > 0 && a[0] == b[0] {
      StrLtTotal(a[1..], b[1..]);
      if a[1..] == b[1..] {
        assert a == [a[0]] + a[1..] && b == [b[0]] + b[1..];
      }
    }
  }

  /** Python's string order is a strict total order, so pandas' sorted
      label axes are well defined. */
  lemma StrLtIsStrictTotal()
    ensures StrictTotalOrder(StrLt)
  {
    forall a: string ensures !StrLt(a, a) {
      StrLtIrreflexive(a);
    }
    forall a: string, b: string, c: string | StrLt(a, b) && StrLt(b, c) ensures StrLt(a, c) {
      StrLtTransitive(a, b, c);
    }
    forall a: string, b: string ensures a == b || StrLt(a, b) || StrLt(b, a) {
      StrLtTotal(a, b);
    }
  }

  /** Comparing two strings that start with fields of equal width compares
      the fields first and the remainders only when the fields agree. */
  lemma {:induction false} StrLtConcat(p: string, x: string, q: string, y: string)
    requires |p| == |q|
    ensures StrLt(p + x, q + y) <==> StrLt(p, q) || (p == q && StrLt(x, y))
    decreases |p|
  {
    if |p| == 0 {
      assert p + x == x && q + y == y;
    } else {
      assert (p + x)[0] == p[0] && (q + y)[0] == q[0];
      assert (p + x)[1..] == p[1..] + x && (q + y)[1..] == q[1..] + y;
      StrLtConcat(p[1..], x, q[1..], y);
      if p[0] == q[0] && p[1..] == q[1..] {
        assert p == [p[0]] + p[1..] && q == [q[0]] + q[1..];
      }
    }
  }

  /** `s` begins with `prefix` (Python's `str.startswith`). */
  predicate StartsWith(s: string, prefix: string) {
    |prefix| <= |s| && s[..|prefix|] == prefix
  }

  /** `sub` occurs in `s` starting at position `i`. */
  ghost predicate OccursAt(s: string, sub: string, i: int) {
    0 <= i <= |s| - |sub| && s[i..i + |sub|] == sub
  }

  /** `sub` occurs at some position of `s`. */
  ghost predicate Occurs(s: string, sub: string) {
    exists i :: OccursAt(s, sub, i)
  }

  /** Python's `sub in s`, scanning left to right. */
  predicate Contains(s: string, sub: string)
    decreases |s|
  {
    if |s| < |sub| then false
    else if StartsWith(s, sub) then true
    else |s| > 0 && Contains(s[1..], sub)
  }

  lemma {:induction false} ContainsOccurs(s: string, sub: string)
    ensures Contains(s, sub) <==> Occurs(s, sub)
    decreases |s|
  {
    if |s| < |sub| {
    } else if StartsWith(s, sub) {
      assert OccursAt(s, sub, 0);
    } else {
      assert |s| > 0;
      ContainsOccurs(s[1..], sub);
      if Occurs(s, sub) {
        var i :| OccursAt(s, sub, i);
        assert i != 0;
        assert s[1..][i - 1..i - 1 + |sub|] == sub;
        assert OccursAt(s[1..], sub, i - 1);
      }
      if Occurs(s[1..], sub) {
        var i :| OccursAt(s[1..], sub, i);
        assert s[i + 1..i + 1 + |sub|] == sub;
        assert OccursAt(s, sub, i + 1);
      }
    }
  }

  /** The first `n` characters of `s` (Python's `s[:n]` for `n >= 0`). */
  function Truncate(s: string, n: nat): (r: string)
    ensures |r| <= n && StartsWith(s, r)
    ensures |s| <= n ==> r == s
    ensures |s| > n ==> |r| == n
  {
    if |s| <= n then s else s[..n]
  }

  function Pow10(w: nat): nat {
    if w == 0 then 1 else 10 * Pow10(w - 1)
  }

  predicate IsDigit(c: char) {
    '0' <= c <= '9'
  }

  predicate AllDigits(s: string) {
    forall i :: 0 <= i < |s| ==> IsDigit(s[i])
  }

  function DigitChar(d: nat): (c: char)
    requires d < 10
    ensures IsDigit(c)
  {
    (('0' as int) + d) as char
  }

  /** `n` written in decimal with exactly `w` digits, zero padded on the
      left, as `strftime` writes `%m`, `%d` and a four-digit `%Y`. */
  function Digits(n: nat, w: nat): (s: string)
    requires n < Pow10(w)
    ensures |s| == w && AllDigits(s)
  {
    if w == 0 then "" else Digits(n / 10, w - 1) + [DigitChar(n % 10)]
  }

  /** The value of a string of decimal digits. */
  function DigitsValue(s: string): nat
    requires AllDigits(s)
  {
    if |s| == 0 then 0
    else DigitsValue(s[..|s| - 1]) * 10 + ((s[|s| - 1] as int) - ('0' as int))
  }

  /** Reading back a zero-padded field gives the number that was written. */
  lemma {:induction false} DigitsRoundTrip(n: nat, w: nat)
    requires n < Pow10(w)
    ensures DigitsValue(Digits(n, w)) == n
  {
    if w > 0 {
      var s := Digits(n, w);
      assert s[..|s| - 1] == Digits(n / 10, w - 1);
      DigitsRoundTrip(n / 10, w - 1);
    }
  }

  lemma DigitsInjective(n: nat, m: nat, w: nat)
    requires n < Pow10(w) && m < Pow10(w)
    ensures Digits(n, w) == Digits(m, w) <==> n == m
  {
    if Digits(n, w) == Digits(m, w) {
      DigitsRoundTrip(n, w);
      DigitsRoundTrip(m, w);
    }
  }

  /** Zero-padded fields of one width sort as strings exactly as their
      numbers do. */
  lemma {:induction false} DigitsOrder(n: nat, m: nat, w: nat)
    requires n < Pow10(w) && m < Pow10(w)
    ensures StrLt(Digits(n, w), Digits(m, w)) <==> n < m
  {
    if w == 0 {
      assert n == 0 && m == 0;
    } else {
      DigitsOrder(n / 10, m / 10, w - 1);
      DigitsInjective(n / 10, m / 10, w - 1);
      StrLtConcat(Digits(n / 10, w - 1), [DigitChar(n % 10)], Digits(m / 10, w - 1), [DigitChar(m % 10)]);
      assert StrLt([DigitChar(n % 10)], [DigitChar(m % 10)]) <==> n % 10 < m % 10;
      assert n == 10 * (n / 10) + n % 10 && m == 10 * (m / 10) + m % 10;
    }
  }
}

=== FILE: tables.dfy ===
/** Spreadsheet rows after loading, and the two things both scripts do to
    every table before aggregating: read the date column through
    `pd.to_datetime(..., errors="coerce")` and keep only the rows whose day
    lies inside the chosen range, both ends included. */
module Tables {
  import opened Wrappers
  import opened Dates

  /** One spreadsheet cell: empty (NaN/NaT), a number, a date, or text. */
  datatype Cell = Missing | Num(n: int) | Day(date: Date) | Text(s: string)

  /** A row is addressed by 0-based column position (`iloc`). */
  type Row = seq<Cell>

  /** Date coercion, cell by cell: `None` is the `NaT` that an unparsable
      value becomes. */
  type Parser = Cell -> Option<Date>

  /** Cells that pandas can add up: empty cells are skipped (count 0). */
  predicate Numeric(c: Cell) {
    c.Missing? || c.Num?
  }

  /** The contribution of a cell to a column sum. */
  function Value(c: Cell): int {
    if c.Num? then c.n else 0
  }

  /** The parsed day in column `col`, or `None` (`NaT`). */
  function DateAt(row: Row, col: nat, parse: Parser): Option<Date> {
    if col < |row| then parse(row[col]) else None
  }

  /** `start <= d <= end` on timestamps: `NaT` compares false both ways. */
  predicate InRange(d: Option<Date>, start: Date, end: Date) {
    d.Some? && DateLe(start, d.value) && DateLe(d.value, end)
  }

  /** The boolean-mask filter `df[(date >= start) & (date <= end)]`: the rows
      dated inside the range, in their original order. */
  function FilterByDate(rows: seq<Row>, col: nat, parse: Parser, start: Date, end: Date): (r: seq<Row>)
    ensures |r| <= |rows|
    ensures forall row :: row in r ==> row in rows && InRange(DateAt(row, col, parse), start, end)
    ensures forall row :: row in rows && InRange(DateAt(row, col, parse), start, end) ==> row in r
  {
    if |rows| == 0 then []
    else
      var rest := FilterByDate(rows[1..], col, parse, start, end);
      assert forall row :: row in rows <==> row == rows[0] || row in rows[1..];
      if InRange(DateAt(rows[0], col, parse), start, end) then [rows[0]] + rest else rest
  }

  /** Filtering works row by row: it distributes over concatenation, so the
      result is the input with the out-of-range rows removed, order kept. */
  lemma {:induction false} FilterAppend(a: seq<Row>, b: seq<Row>, col: nat, parse: Parser, start: Date, end: Date)
    ensures FilterByDate(a + b, col, parse, start, end)
         == FilterByDate(a, col, parse, start, end) + FilterByDate(b, col, parse, start, end)
  {
    if |a| > 0 {
      assert (a + b)[1..] == a[1..] + b;
      FilterAppend(a[1..], b, col, parse, start, end);
    } else {
      assert a + b == b;
    }
  }

  /** With the start after the end, no day qualifies and nothing is kept. */
  lemma {:induction false} FilterInverted(rows: seq<Row>, col: nat, parse: Parser, start: Date, end: Date)
    requires DateLt(end, start)
    ensures FilterByDate(rows, col, parse, start, end) == []
  {
    if |rows| > 0 {
      FilterInverted(rows[1..], col, parse, start, end);
    }
  }

  /** The sum `df.iloc[:, col].sum()` over the given rows, empty cells as 0. */
  function ColumnSum(rows: seq<Row>, col: nat): int {
    if |rows| == 0 then 0
    else (if col < |rows[0]| then Value(rows[0][col]) else 0) + ColumnSum(rows[1..], col)
  }

  lemma {:induction false} ColumnSumAppend(a: seq<Row>, b: seq<Row>, col: nat)
    ensures ColumnSum(a + b, col) == ColumnSum(a, col) + ColumnSum(b, col)
  {
    if |a| > 0 {
      assert (a + b)[1..] == a[1..] + b;
      ColumnSumAppend(a[1..], b, col);
    } else {
      assert a + b == b;
    }
  }

  /** The parsed days of column `col`, in row order, `NaT` dropped. */
  function ParsedDates(rows: seq<Row>, col: nat, parse: Parser): (ds: seq<Date>)
    ensures forall d :: d in ds <==> exists i :: 0 <= i < |rows| && DateAt(rows[i], col, parse) == Some(d)
  {
    if |rows| == 0 then []
    else
      var rest := ParsedDates(rows[1..], col, parse);
      assert forall i :: 0 < i < |rows| ==> rows[1..][i - 1] == rows[i];
      assert forall d :: (exists i :: 0 <= i < |rows[1..]| && DateAt(rows[1..][i], col, parse) == Some(d))
                     ==> (exists i :: 0 <= i < |rows| && DateAt(rows[i], col, parse) == Some(d));
      match DateAt(rows[0], col, parse)
      case Some(d) => [d] + rest
      case None => rest
  }

  /** The earliest and latest of a non-empty list of days. */
  function Span(ds: seq<Date>): (r: (Date, Date))
    requires |ds| > 0
    ensures r.0 in ds && r.1 in ds
    ensures forall d :: d in ds ==> DateLe(r.0, d) && DateLe(d, r.1)
  {
    if |ds| == 1 then (ds[0], ds[0])
    else
      var (lo, hi) := Span(ds[1..]);
      assert forall d :: d in ds <==> d == ds[0] || d in ds[1..];
      (if DateLt(ds[0], lo) then ds[0] else lo, if DateLt(hi, ds[0]) then ds[0] else hi)
  }

  /** The range offered before the user picks one: the first and last day of
      the conversion log's date column (column 0), or `today` twice when no
      value in it parses. */
  function DefaultRange(rows: seq<Row>, parse: Parser, today: Date): (r: (Date, Date))
    ensures (forall i :: 0 <= i < |rows| ==> DateAt(rows[i], 0, parse).None?) ==> r == (today, today)
    ensures (exists i :: 0 <= i < |rows| && DateAt(rows[i], 0, parse).Some?) ==>
      && (exists i :: 0 <= i < |rows| && DateAt(rows[i], 0, parse) == Some(r.0))
      && (exists i :: 0 <= i < |rows| && DateAt(rows[i], 0, parse) == Some(r.1))
      && (forall i :: 0 <= i < |rows| && DateAt(rows[i], 0, parse).Some? ==>
            InRange(DateAt(rows[i], 0, parse), r.0, r.1))
  {
    var ds := ParsedDates(rows, 0, parse);
    assert forall i :: 0 <= i < |rows| && DateAt(rows[i], 0, parse).Some? ==>
      DateAt(rows[i], 0, parse).value in ds;
    if |ds| == 0 then (today, today)
    else
      Span(ds)
  }
}

=== FILE: wrappers.dfy ===
/** Optional values, for the places where the scripts may produce nothing:
    a date that failed to parse, an ad code that classifies to no bucket, a
    cost sheet with no extractable label. */
module Wrappers {

  datatype Option<+T> = None | Some(value: T) {

    /** `fillna(d)` for one value: the held value, else `d`. */
    function ValueOr(d: T): T {
      if Some? then value else d
    }
  }

  /** The held values of `xs`, in order; the empty ones are skipped. */
  function Present<T(!new)>(xs: seq<Option<T>>): (r: seq<T>)
    ensures |r| <= |xs|
    ensures forall v :: v in r <==> Some(v) in xs
  {
    if |xs| == 0 then []
    else
      assert forall o :: o in xs <==> o == xs[0] || o in xs[1..];
      (if xs[0].Some? then [xs[0].value] else []) + Present(xs[1..])
  }

  /** Skipping the empty values keeps the order of the rest. */
  lemma {:induction false} PresentAppend<T(!new)>(a: seq<Option<T>>, b: seq<Option<T>>)
    ensures Present(a + b) == Present(a) + Present(b)
  {
    if |a| == 0 {
      assert a + b == b;
    } else {
      assert (a + b)[1..] == a[1..] + b;
      assert (a + b)[0] == a[0];
      PresentAppend(a[1..], b);
    }
  }
}
